=== FILE: README.md ===
# CsvParser of the AquaCalc 5000 field-data plugin, in Dafny

`AquaCalc5000.Parsers.CsvParser` takes the text of an AquaCalc 5000 export
and a delimiter character (`,` by default). Its constructor reads the text
line by line. Each line gets a 1-based number and keeps its original text.
Its fields are the delimiter-separated segments, trimmed; a blank line has no
fields. The parser then answers read-only queries:

- the first non-blank line;
- the first line whose first field (the label) equals a given label, ignoring case;
- "required" accessors that fail when the label is missing, when the line has
  no value field, or when the value is blank;
- typed accessors for `int`, `double` and `bool`. The boolean one falls back
  to `true` when the field is not a boolean literal;
- the first line, or all lines, accepted by a caller's filter;
- the number of the last line.

The model is functional. The class becomes a value
`CsvParsing.CsvParser(lines, delimiter)`, built by `CsvParsing.New`.
Each C# `null` return becomes `Results.Option`. Each thrown exception becomes
`Results.Result.Err` carrying a `CsvError`, named by its cause:

| CsvError | C# exception |
|---|---|
| `InvalidArgument` | `ArgumentNullException`: the label is null or blank |
| `NotFound` | `ArgumentException`: "No line starting with ... is found" |
| `NoValue` | `ArgumentException`: "Required value is not found" |
| `EmptyValue` | `ArgumentException`: "Required value is empty" |
| `NumberFormat(Format)` / `NumberFormat(Overflow)` | `FormatException` / `OverflowException` from `int.Parse` or `double.Parse` |

Files, one module each:

- `results.dfy`: `Option` and `Result`.
- `text.dfy`: the .NET string primitives the class uses. These are
  `char.IsWhiteSpace`, `string.IsNullOrWhiteSpace`, `Trim`, `Split(char)`,
  `string.Join` and a case-insensitive comparison. Trim, split and join have
  round-trip lemmas.
- `string_reader.dfy`: `StringReader.ReadLine`. The reader's state is its
  unread text. A line ends at `\r\n`, `\r` or `\n`, and a final terminator
  does not add an empty line.
- `linq.dfy`: `FirstOrDefault(predicate)` and `Where(predicate)`.
- `number_parsing.dfy`: `int.Parse` and `bool.TryParse`.
- `csv_parser.dfy`: the class itself.
- `csv_parser_properties.dfy`: lemmas that relate the class's operations to
  each other or to independent descriptions.
- `csv_parser_examples.dfy`: worked examples on concrete text.

Facts about the code that the model keeps:

- `StringReader.ReadLine` ends a line at `\r\n`, `\r` or `\n`, and empty
  text has no lines at all.
- The two `ArgumentException`s at src/AquaCalc5000/Parsers/CsvParser.cs:75
  and :83 carry different messages, and the model keeps them apart as
  `NoValue` and `EmptyValue`.
- `int.Parse` throws `OverflowException` for numbers outside 32 bits as well
  as `FormatException`, so the model has `NumberFormat(Overflow)` too.
- `GetRequiredStringByLabel` checks for a `null` line at
  src/AquaCalc5000/Parsers/CsvParser.cs:67. That check cannot fire, because
  `GetRequiredLineByLabel` already throws when nothing is found. The model
  has no such branch: `GetRequiredLineByLabel` never returns a line that is
  absent.

## Model

| member | source | states |
|---|---|---|
| CsvParsing.New | src/AquaCalc5000/Parsers/CsvParser.cs:14-18 | The constructed parser keeps the delimiter and is valid: line k is number k + 1, holds no line break, and its fields are the split of its text. It has one line per line the reader returns, with that text. |
| CsvParsing.ParseToCsvLines | src/AquaCalc5000/Parsers/CsvParser.cs:20-45 | Null text gives no lines. Otherwise the k-th line read becomes line number k + 1 with that original text and the fields of that text. |
| CsvParsing.ReadCsvLines | src/AquaCalc5000/Parsers/CsvParser.cs:29-42 | The reading loop, numbering from a start value: it yields one line per `ReadLine` result, with consecutive numbers from that start. |
| CsvParsing.SplitToParts | src/AquaCalc5000/Parsers/CsvParser.cs:47-55 | A line has no fields exactly when it is blank. A non-blank line has one field more than it has delimiters. Every field is trimmed and contains no delimiter. `CsvParserProperties.SplitToPartsOfPaddedJoin` adds that field i is the trim of segment i. |
| CsvParsing.GetFirstNonEmptyLineOrNull | src/AquaCalc5000/Parsers/CsvParser.cs:57-61 | The result is absent exactly when every line is blank. Otherwise it is the earliest non-blank line, and every earlier line is blank. |
| CsvParsing.GetLineByLabelOrNull | src/AquaCalc5000/Parsers/CsvParser.cs:89-99 | A blank label, and only a blank label, gives `InvalidArgument`. Otherwise the result is absent exactly when no line has the label as its first field, ignoring case. When present it is the first such line; no earlier line matches. |
| CsvParsing.GetRequiredLineByLabel | src/AquaCalc5000/Parsers/CsvParser.cs:101-111 | A blank label gives `InvalidArgument`, and a label that no line carries gives `NotFound`; no other error occurs. On success the result is the first line carrying the label. |
| CsvParsing.GetRequiredValueLine | src/AquaCalc5000/Parsers/CsvParser.cs:125-135 | Lookup errors pass through unchanged. A found line with fewer than two fields, and only such a line, gives `NoValue`. The call succeeds exactly when the line is found and has at least two fields. On success the line has at least two fields, so the `parts[1]` reads in the typed accessors are in bounds. |
| CsvParsing.NonBlankValues | src/AquaCalc5000/Parsers/CsvParser.cs:79 | `parts.Skip(1).Where(...)`. Every selected value is non-blank and is one of the fields after the label, and every non-blank field after the label is selected. Each non-blank field is selected exactly as often as it occurs, so duplicates are kept. |
| CsvParsing.NonBlankValuesInOrder | src/AquaCalc5000/Parsers/CsvParser.cs:78-79 | The selected values keep the field order. Value i is the field at the i-th of strictly increasing positions after the label, and each of those fields is non-blank. |
| CsvParsing.GetRequiredStringByLabel | src/AquaCalc5000/Parsers/CsvParser.cs:63-87 | Lookup errors pass through. `NoValue` occurs exactly when the value-line check fails with it. `EmptyValue` occurs exactly when every field after the label is blank. The call succeeds exactly when the value line is found and some field after the label is not blank. A successful result is never blank. |
| CsvParsing.JoinBlankIffNoParts | src/AquaCalc5000/Parsers/CsvParser.cs:78-84 | Non-blank values joined by the delimiter are blank only when there are no values. This is why the blank check at line 81 fires only when no value is left. |
| CsvParsing.NoNonBlankValues | src/AquaCalc5000/Parsers/CsvParser.cs:78-79 | No non-blank value is selected exactly when every field after the label is blank. |
| CsvParsing.GetRequiredIntByLabel | src/AquaCalc5000/Parsers/CsvParser.cs:118-123 | A successful result lies in the 32-bit range. Value-line errors pass through. With a value line, the call succeeds exactly when `int.Parse` accepts the second field, and then its value is the parsed value. Otherwise it fails with that parser's error. |
| CsvParsing.GetRequiredDoubleByLabel | src/AquaCalc5000/Parsers/CsvParser.cs:147-152 | Value-line errors pass through. With a value line, the result is what the supplied `double.Parse` makes of the second field, and its errors propagate. |
| CsvParsing.GetRequiredBooleanByLabelOrDefault | src/AquaCalc5000/Parsers/CsvParser.cs:154-164 | It fails exactly when the value line cannot be found, with the same error. It gives `false` exactly when the second field parses as `false`. Every other field, including one that is not a boolean at all, gives `true`. |
| CsvParsing.GetFirstLineByFilterOrNull | src/AquaCalc5000/Parsers/CsvParser.cs:113-116 | The result is absent exactly when the filter accepts no line. Otherwise it is the first accepted line, and the filter rejects every earlier line. |
| CsvParsing.GetAllLinesByFilter | src/AquaCalc5000/Parsers/CsvParser.cs:137-140 | Every returned line passes the filter. Each accepted line appears as often as in the parser, and each rejected line never appears. |
| CsvParsing.GetLastLineNum | src/AquaCalc5000/Parsers/CsvParser.cs:142-145 | It is 0 without lines. For numbered lines it equals the line count. |
| Text.TrimStartIndex | src/AquaCalc5000/Parsers/CsvParser.cs:54 | Everything before the returned index is stripped, and the character at the index is kept. |
| Text.TrimEndIndex | src/AquaCalc5000/Parsers/CsvParser.cs:54 | Everything from the returned index to the end is stripped, and the character just before it is kept. |
| Text.TrimWith | src/AquaCalc5000/Parsers/CsvParser.cs:54 | The result has no strippable character at either end. It is empty exactly when every character is strippable. It adds no character that was not in the input. |
| Text.Trim | src/AquaCalc5000/Parsers/CsvParser.cs:54 | `Trim()` leaves no white space at either end. It gives an empty string exactly for a blank input, and adds no character. |
| Text.TrimWithPadded | src/AquaCalc5000/Parsers/CsvParser.cs:54 | Trimming is fully determined: a trimmed core surrounded by strippable padding trims to exactly that core. |
| Text.TrimIdempotent | src/AquaCalc5000/Parsers/CsvParser.cs:54 | Trimming twice is the same as trimming once. |
| Text.TrimOfTrimmed | src/AquaCalc5000/Parsers/CsvParser.cs:54 | A trimmed string is its own trim. |
| Text.Split | src/AquaCalc5000/Parsers/CsvParser.cs:54 | `Split(d)` gives one more piece than there are `d` characters, and no piece contains `d`. |
| Text.JoinSplit | src/AquaCalc5000/Parsers/CsvParser.cs:54 | Joining the pieces of a split with the same separator rebuilds the string. |
| Text.SplitJoin | src/AquaCalc5000/Parsers/CsvParser.cs:78-79 | Splitting a join of separator-free parts gives back the parts. |
| Text.SplitWithoutSeparator | src/AquaCalc5000/Parsers/CsvParser.cs:54 | A string without the separator splits into itself alone. |
| Text.SplitAtFirstSeparator | src/AquaCalc5000/Parsers/CsvParser.cs:54 | Splitting at the first separator peels off the text before it. |
| Text.JoinContainsParts | src/AquaCalc5000/Parsers/CsvParser.cs:78-79 | Every character of every joined part occurs in the joined string. |
| Text.IsWhiteSpace | src/AquaCalc5000/Parsers/CsvParser.cs:54 | `char.IsWhiteSpace`, the characters `Trim` strips. Its partner facts are in `Text.Trim` and `Text.TrimWithPadded`. |
| Text.IsBlank | src/AquaCalc5000/Parsers/CsvParser.cs:49 | `string.IsNullOrWhiteSpace` on a non-null string. `Text.Trim` states that a string is blank exactly when its trim is empty. |
| Text.Join | src/AquaCalc5000/Parsers/CsvParser.cs:78-79 | `string.Join`: no parts give the empty string, and otherwise the join starts with the first part. `Text.JoinSplit` and `Text.SplitJoin` make it the inverse of `Split`. |
| Text.JoinSeparatorCount | src/AquaCalc5000/Parsers/CsvParser.cs:78-79 | A join of separator-free parts holds exactly one separator between each two neighbours. |
| Text.FoldCase | src/AquaCalc5000/Parsers/CsvParser.cs:98 | The case mapping of the comparison, lowering ASCII and Latin-1 capital letters. `Text.FoldCaseProperties` states its properties. |
| Text.FoldCaseProperties | src/AquaCalc5000/Parsers/CsvParser.cs:98 | Folding is idempotent. Each ASCII letter, in either case, folds to its lower-case form. |
| Text.EqualsIgnoreCase | src/AquaCalc5000/Parsers/CsvParser.cs:98 | `string.Equals(..., InvariantCultureIgnoreCase)`, reduced to comparing folded characters one by one. |
| Text.EqualsIgnoreCaseIsEquivalence | src/AquaCalc5000/Parsers/CsvParser.cs:98 | The comparison is reflexive, symmetric and transitive. |
| StringReader.LineEnd | src/AquaCalc5000/Parsers/CsvParser.cs:33 | It returns the first line break at or after the start, or the end of the text. |
| StringReader.ReadLine | src/AquaCalc5000/Parsers/CsvParser.cs:33 | Nothing is returned exactly at the end of the text. Otherwise the line is the longest break-free prefix. The reader then skips 0, 1 or 2 terminator characters: 0 only at the end of the text, 2 only for `\r\n`. |
| StringReader.ReadLines | src/AquaCalc5000/Parsers/CsvParser.cs:29-42 | Empty text, and only empty text, has no lines. There are no more lines than characters, and no line contains a line break. `StringReader.ReadLinesOfWritten` fixes the lines of any written text. |
| StringReader.ReadLineOfTerminated | src/AquaCalc5000/Parsers/CsvParser.cs:33 | A break-free line followed by a terminator reads back as that line, and the reader stops just after the terminator. |
| StringReader.ReadLinesOfWritten | src/AquaCalc5000/Parsers/CsvParser.cs:29-42 | Round trip for any text: break-free lines, each followed by its own `\r\n`, `\r` or `\n`, read back as exactly those lines. The last line may also end the text without a terminator when it is not empty. The one excluded case is a `\r` before an empty line ending in `\n`, since the two would merge into one `\r\n`. |
| StringReader.ReadLinesOfSingleLine | src/AquaCalc5000/Parsers/CsvParser.cs:33 | Non-empty text without a line break is one line. |
| Linq.FirstIndex | src/AquaCalc5000/Parsers/CsvParser.cs:59-60 | The returned position holds the first element satisfying the predicate. The result is absent exactly when no element does. |
| Linq.FirstOrDefault | src/AquaCalc5000/Parsers/CsvParser.cs:96-98 | `FirstOrDefault(p)` is absent exactly when no element satisfies `p`. Otherwise it is the element at the first position that does. |
| Linq.Where | src/AquaCalc5000/Parsers/CsvParser.cs:139 | Every kept element satisfies the predicate and comes from the input. Every input element satisfying it is kept. The result is no longer than the input. |
| Linq.WhereAppend | src/AquaCalc5000/Parsers/CsvParser.cs:139 | Filtering distributes over concatenation, so it keeps relative order. |
| Linq.FirstOrDefaultIsHeadOfWhere | src/AquaCalc5000/Parsers/CsvParser.cs:113-116 | `FirstOrDefault(p)` is the head of `Where(p)`, or absent when that list is empty. |
| Linq.WhereCounts | src/AquaCalc5000/Parsers/CsvParser.cs:139 | Each element satisfying the predicate is kept exactly as often as it occurs in the input, and no other element is kept. |
| Linq.WhereKeepsOrder | src/AquaCalc5000/Parsers/CsvParser.cs:139 | A key that strictly increases along the input also strictly increases along the filtered list. |
| Linq.WhereIndices | src/AquaCalc5000/Parsers/CsvParser.cs:139 | `Where` is the sub-sequence of the input at strictly increasing positions, each holding an element that satisfies the predicate. |
| NumberParsing.ParseInt32 | src/AquaCalc5000/Parsers/CsvParser.cs:122 | A successful result fits in 32 bits. `Format` is the error exactly when the text, without surrounding white space, is not an optionally signed run of decimal digits. The value comes from `NumberParsing.ParseLiteral`. |
| NumberParsing.ParseLiteral | src/AquaCalc5000/Parsers/CsvParser.cs:122 | On text stripped of white space: a result fits in 32 bits, and `Format` is the error exactly for a text that is not a signed digit run. |
| NumberParsing.ParseLiteralSigned | src/AquaCalc5000/Parsers/CsvParser.cs:122 | A sign followed by digits parses to the signed value of the digits when it fits in 32 bits. Otherwise it gives `Overflow`. |
| NumberParsing.ParsePadded | src/AquaCalc5000/Parsers/CsvParser.cs:122 | White space around a trimmed text does not change what `int.Parse` makes of it. |
| NumberParsing.DigitsValueLeadingZeros | src/AquaCalc5000/Parsers/CsvParser.cs:122 | Leading zeros do not change the value of a digit string. |
| NumberParsing.ParseSignedDigits | src/AquaCalc5000/Parsers/CsvParser.cs:122 | Any spelling of a number parses to the signed number inside the 32-bit range, and to `Overflow` outside it. A spelling is white space, an optional sign, leading zeros, the digits, then white space. So "-0" is 0 and "007" is 7. |
| NumberParsing.FormatNat | src/AquaCalc5000/Parsers/CsvParser.cs:122 | The rendering of a natural number is a non-empty run of decimal digits. |
| NumberParsing.FormatInt | src/AquaCalc5000/Parsers/CsvParser.cs:122 | The rendering of an integer is an optionally signed run of decimal digits. |
| NumberParsing.DigitsValueOfFormatNat | src/AquaCalc5000/Parsers/CsvParser.cs:122 | The digits of a rendered natural number have that number as their value. |
| NumberParsing.LiteralIsTrimmed | src/AquaCalc5000/Parsers/CsvParser.cs:122 | An integer literal has no surrounding white space for `int.Parse` to skip. |
| NumberParsing.ParseFormatInt | src/AquaCalc5000/Parsers/CsvParser.cs:122 | Round trip: parsing the rendering of a 32-bit number gives the number back. Any other number gives `Overflow`. |
| NumberParsing.TryParseBool | src/AquaCalc5000/Parsers/CsvParser.cs:158 | A blank string is not a boolean. A string parses to `b` only when, stripped of white space and NUL characters, it equals "True" or "False" ignoring case. `NumberParsing.TryParseBoolLiteral` gives the converse. |
| NumberParsing.TryParseBoolLiteral | src/AquaCalc5000/Parsers/CsvParser.cs:158 | "True" or "False" in any letter case, padded by white space or NUL characters, parses to its value. |
| CsvParserProperties.EmptyInput | src/AquaCalc5000/Parsers/CsvParser.cs:24-27 | Null text and empty text both give no lines. The last line number is then 0 and there is no non-blank line. |
| CsvParserProperties.LinesOfTerminatedText | src/AquaCalc5000/Parsers/CsvParser.cs:29-44 | Lines written with any mix of `\r\n`, `\r` and `\n`, the last terminator possibly omitted, are parsed one for one. The k-th line written is number k + 1 with that text, and the last line number is the count written. |
| CsvParserProperties.SplitToPartsOfField | src/AquaCalc5000/Parsers/CsvParser.cs:47-55 | A trimmed field without the delimiter re-parses to itself alone, or to nothing when it is empty. |
| CsvParserProperties.FieldsAreStable | src/AquaCalc5000/Parsers/CsvParser.cs:54 | Every field of a constructed parser is its own trim and re-parses to itself. |
| CsvParserProperties.SplitToPartsOfJoin | src/AquaCalc5000/Parsers/CsvParser.cs:47-55 | Round trip: trimmed, delimiter-free fields, joined into a non-blank line, split back into the same fields. |
| CsvParserProperties.SplitToPartsOfPaddedJoin | src/AquaCalc5000/Parsers/CsvParser.cs:47-55 | Fields are the trimmed segments. A non-blank line of cores padded with white space (not the delimiter) splits into exactly those cores, so " a , b " gives "a" and "b". |
| CsvParserProperties.JoinOfPartsOfTrimmedSegments | src/AquaCalc5000/Parsers/CsvParser.cs:54 | If no segment has white space around it, joining a non-blank line's fields rebuilds the line. |
| CsvParserProperties.FirstLineByFilterIsAtItsNumber | src/AquaCalc5000/Parsers/CsvParser.cs:113-116 | A line a filter finds in numbered lines sits at the position its number names, and it is the first accepted line. |
| CsvParserProperties.FirstLineByFilterIsFirstOfAll | src/AquaCalc5000/Parsers/CsvParser.cs:113-116 | The first line a filter accepts is the head of all the lines it accepts. |
| CsvParserProperties.AllLinesByFilterInOrder | src/AquaCalc5000/Parsers/CsvParser.cs:137-140 | Filtered lines come back in strictly increasing line number. Each is the parser's line of that number, so the result is an order-preserving sub-list without repeats. |
| CsvParserProperties.AllLinesByFilterEmpty | src/AquaCalc5000/Parsers/CsvParser.cs:137-140 | The result is the empty list, not an error, exactly when the filter accepts no line. |
| CsvParserProperties.LabelledLineFollowsFirstNonEmpty | src/AquaCalc5000/Parsers/CsvParser.cs:57-61 | A line found by label is never blank, so a first non-blank line then exists and comes no later. |
| CsvParserProperties.NonBlankValuesAreFields | src/AquaCalc5000/Parsers/CsvParser.cs:78-79 | The selected values of trimmed, delimiter-free fields are non-blank, trimmed and delimiter-free. |
| CsvParserProperties.FoundLineFields | src/AquaCalc5000/Parsers/CsvParser.cs:101-111 | A line found by label in a constructed parser has trimmed, delimiter-free fields. |
| CsvParserProperties.RequiredStringSplitsIntoValues | src/AquaCalc5000/Parsers/CsvParser.cs:78-86 | A required string splits on the delimiter into the selected non-blank value fields of its line. `CsvParsing.NonBlankValuesInOrder` says those keep their original order. Each of them is non-blank and trimmed. |
| CsvParserProperties.TrimmedFieldHasNoNumberWhite | src/AquaCalc5000/Parsers/CsvParser.cs:122 | A trimmed field has none of the white space `int.Parse` would skip. |
| CsvParserProperties.RequiredIntFormatError | src/AquaCalc5000/Parsers/CsvParser.cs:118-123 | A required integer is a format error exactly when its field is not an optionally signed run of decimal digits. |
| CsvParserProperties.RequiredIntOfRenderedNumber | src/AquaCalc5000/Parsers/CsvParser.cs:118-123 | A field holding a rendered number reads back as that number. Outside the 32-bit range it fails with an overflow. |
| CsvParserProperties.RequiredBooleanOfField | src/AquaCalc5000/Parsers/CsvParser.cs:154-164 | The result is `false` exactly when the field, stripped of white space and NUL characters, reads "False" in some letter case. Any other non-blank trimmed field gives the default `true`. |
| CsvParserExamples.TwoLinesParsed | src/AquaCalc5000/Parsers/CsvParser.cs:20-55 | "A,1\nB,2\n" parses to line 1 with fields A, 1 and line 2 with fields B, 2. |
| CsvParserExamples.TwoLinesLookups | src/AquaCalc5000/Parsers/CsvParser.cs:89-123 | In "A,1\nB,2\n", label "a" finds line 1 ignoring case, "B" holds the integer 2, and the last line number is 2. |
| CsvParserExamples.EmptyMiddleField | src/AquaCalc5000/Parsers/CsvParser.cs:63-87 | On the line "X,,foo" the required string of "X" skips the blank field and is "foo". |
| CsvParserExamples.LabelWithoutValue | src/AquaCalc5000/Parsers/CsvParser.cs:72-76 | On the line "X" the required string of "X" fails with `NoValue`. |
| CsvParserExamples.NonBooleanDefaultsToTrue | src/AquaCalc5000/Parsers/CsvParser.cs:154-164 | On the line "X,notabool" the boolean of "X" is `true`, not an error. |

## Left out

- Null label: the label is a `string`. A null label behaves in the source exactly like a blank one (`string.IsNullOrWhiteSpace`), and the blank case is modelled as `InvalidArgument`.
- Exception types and messages: these are replaced by `CsvError` values. The label in the message text is not modelled.
- `StringReader` and `IDisposable` plumbing: the reader is modelled by its unread text, and disposal has no observable effect here.
- Text.FoldCase: lower-cases ASCII and Latin-1 capital letters only, as a stand-in for the case folding of `InvariantCultureIgnoreCase`. Full Unicode case folding is left out.
- Text.EqualsIgnoreCase: `InvariantCultureIgnoreCase` is a culture-aware comparison. It ignores ignorable code points such as U+00AD and U+200D and can equate strings of different lengths. `Text.EqualsIgnoreCase` compares character by character and needs equal lengths, so labels that differ only in such code points are not found.
- UTF-16: a Dafny `char` is a Unicode scalar value, but .NET strings are sequences of UTF-16 code units. A surrogate-pair delimiter, a lone surrogate, and splitting or trimming one code unit at a time are not represented.
- Filters: a filter is a total, side-effect-free `CsvLine -> bool`. A filter that throws or has effects, and a null filter (`ArgumentNullException` from `FirstOrDefault` or `Where`, src/AquaCalc5000/Parsers/CsvParser.cs:115 and :139), are not modelled.
- Whitespace: `Text.IsWhiteSpace` is a fixed list, the Unicode White_Space characters that `char.IsWhiteSpace` accepts. It does not follow future Unicode versions.
- CsvParsing.GetRequiredDoubleByLabel: `double.Parse` is floating-point and culture-dependent parsing, so the caller supplies it as a parameter. Only the lookup, the arity check and error propagation are modelled.
- NumberParsing.ParseInt32: `int.Parse` takes its sign strings from the current culture, and the model fixes them to `+` and `-`. Trailing NUL characters, which `int.Parse` also accepts, are left out.
- NumberParsing.TryParseBool: letter case follows `Text.FoldCase` instead of .NET's ordinal case-insensitive comparison. This differs only for non-ASCII look-alikes of the letters in "true" and "false".
- Shared lines: the queries return the parser's own `CsvLine` objects (`FirstOrDefault` at src/AquaCalc5000/Parsers/CsvParser.cs:59, :96 and :115, and `Where(...).ToList()` at :139, which copies only the list). A caller that changes such an object, for example by clearing its `Parts` or setting a new `LineNumber`, changes later query results. The model's lines are values and do not represent this; it describes a parser whose lines nobody has changed since construction.
- The `CsvLine` class is not part of this model. It is represented by the `CsvParsing.CsvLine` datatype with the three properties the parser sets.

=== FILE: csv_parser.dfy ===
/** `AquaCalc5000.Parsers.CsvParser`: delimiter-separated text cut into
    numbered lines of trimmed fields, with read-only lookups by the leading
    field (the label) or by a caller's filter.

    The C# class becomes an immutable value `CsvParser` built by `New`;
    `null` returns become `Option`, thrown exceptions become `Result.Err`. */
module CsvParsing {
  import opened Results
  import opened Text
  import opened StringReader
  import opened Linq
  import opened NumberParsing

  /** One input line: its 1-based number, its text without terminator, and
      its trimmed fields (none for a blank line). */
  datatype CsvLine = CsvLine(lineNumber: nat, originalLine: string, parts: seq<string>)

  /** The parser: its lines, as built at construction, and the delimiter. */
  datatype CsvParser = CsvParser(lines: seq<CsvLine>, delimiter: char)

  /** The exceptions of the C# class, by cause. */
  datatype CsvError =
    | InvalidArgument          // null or blank label (ArgumentNullException)
    | NotFound                 // no line carries the label
    | NoValue                  // the labelled line has no field after the label
    | EmptyValue               // every field after the label is blank
    | NumberFormat(cause: NumberError)  // int.Parse / double.Parse failed

  /** Line k (0-based) carries number k + 1. */
  predicate IsNumbered(lines: seq<CsvLine>) {
    forall k :: 0 <= k < |lines| ==> lines[k].lineNumber == k + 1
  }

  /** Every line holds no line break and its fields are the split of its text. */
  predicate IsSplit(lines: seq<CsvLine>, d: char) {
    forall k :: 0 <= k < |lines| ==>
      HasNoLineBreak(lines[k].originalLine) && lines[k].parts == SplitToParts(lines[k].originalLine, d)
  }

  /** What a constructed parser always satisfies. */
  predicate IsValid(p: CsvParser) {
    IsNumbered(p.lines) && IsSplit(p.lines, p.delimiter)
  }

  // ---------------------------------------------------------------------------
  // Construction
  // ---------------------------------------------------------------------------

  /** `SplitToParts`: no fields for a blank line; otherwise every
      delimiter-separated segment, trimmed. */
  function SplitToParts(line: string, d: char): (parts: seq<string>)
    ensures |parts| == 0 <==> IsBlank(line)
    ensures !IsBlank(line) ==> |parts| == multiset(line)[d] + 1
    ensures forall i :: 0 <= i < |parts| ==> IsTrimmed(parts[i]) && d !in parts[i]
  {
    if IsBlank(line) then []
    else
      var segments := Split(line, d);
      seq(|segments|, i requires 0 <= i < |segments| => Trim(segments[i]))
  }

  /** The lines a `StringReader` returns for the constructor's text; a `null`
      text has none. */
  function InputLines(text: Option<string>): seq<string> {
    match text
    case None => []
    case Some(s) => ReadLines(s)
  }

  /** The reading loop of `ParseToCsvLines`, from unread text `rest` whose
      first line gets number `lineNumber`. */
  function ReadCsvLines(rest: string, lineNumber: nat, d: char): (r: seq<CsvLine>)
    ensures |r| == |ReadLines(rest)|
    ensures forall k :: 0 <= k < |r| ==>
      r[k] == CsvLine(lineNumber + k, ReadLines(rest)[k], SplitToParts(ReadLines(rest)[k], d))
    decreases |rest|
  {
    match ReadLine(rest)
    case None => []
    case Some((line, more)) =>
      [CsvLine(lineNumber, line, SplitToParts(line, d))] + ReadCsvLines(more, lineNumber + 1, d)
  }

  /** `ParseToCsvLines`: no lines for `null`, otherwise one numbered line per
      line read, numbering from 1. */
  function ParseToCsvLines(text: Option<string>, d: char): (r: seq<CsvLine>)
    ensures |r| == |InputLines(text)|
    ensures forall k :: 0 <= k < |r| ==>
      && r[k].lineNumber == k + 1
      && r[k].originalLine == InputLines(text)[k]
      && r[k].parts == SplitToParts(r[k].originalLine, d)
  {
    match text
    case None => []
    case Some(s) => ReadCsvLines(s, 1, d)
  }

  /** The constructor's default delimiter, a comma. */
  const DefaultDelimiter: char := ','

  /** The constructor `CsvParser(csvText, delimiterChar)`, whose delimiter
      defaults to `DefaultDelimiter`. */
  function New(csvText: Option<string>, delimiter: char := DefaultDelimiter): (p: CsvParser)
    ensures IsValid(p)
    ensures p.delimiter == delimiter
    ensures |p.lines| == |InputLines(csvText)|
    ensures forall k :: 0 <= k < |p.lines| ==> p.lines[k].originalLine == InputLines(csvText)[k]
  {
    CsvParser(ParseToCsvLines(csvText, delimiter), delimiter)
  }

  // ---------------------------------------------------------------------------
  // Line queries
  // ---------------------------------------------------------------------------

  predicate IsNonBlankLine(l: CsvLine) {
    !IsBlank(l.originalLine)
  }

  /** `GetFirstNonEmptyLineOrNull`: the first line whose text is not blank. */
  function GetFirstNonEmptyLineOrNull(p: CsvParser): (r: Option<CsvLine>)
    ensures r.None? <==> forall k :: 0 <= k < |p.lines| ==> IsBlank(p.lines[k].originalLine)
    ensures r.Some? ==> exists k :: IsFirstMatch(p.lines, IsNonBlankLine, k) && p.lines[k] == r.value
  {
    FirstOrDefault(p.lines, IsNonBlankLine)
  }

  /** The line has at least one field and its first field equals `label`,
      ignoring case. */
  predicate StartsWithLabel(l: CsvLine, key: string) {
    |l.parts| > 0 && EqualsIgnoreCase(l.parts[0], key)
  }

  function LabelMatcher(key: string): CsvLine -> bool {
    l => StartsWithLabel(l, key)
  }

  /** `GetLineByLabelOrNull`: rejects a blank label; otherwise the first line
      starting with the key, or `None`. */
  function GetLineByLabelOrNull(p: CsvParser, key: string): (r: Result<Option<CsvLine>, CsvError>)
    ensures r.Err? <==> IsBlank(key)
    ensures r.Err? ==> r.error == InvalidArgument
    ensures r == Ok(None) <==>
      !IsBlank(key) && forall k :: 0 <= k < |p.lines| ==> !StartsWithLabel(p.lines[k], key)
    ensures r.Ok? && r.value.Some? ==>
      exists k :: IsFirstMatch(p.lines, LabelMatcher(key), k) && p.lines[k] == r.value.value
  {
    if IsBlank(key) then Err(InvalidArgument)
    else Ok(FirstOrDefault(p.lines, LabelMatcher(key)))
  }

  /** `GetRequiredLineByLabel`: as `GetLineByLabelOrNull`, but a missing
      label is the error `NotFound`. */
  function GetRequiredLineByLabel(p: CsvParser, key: string): (r: Result<CsvLine, CsvError>)
    ensures r == Err(InvalidArgument) <==> IsBlank(key)
    ensures r == Err(NotFound) <==>
      !IsBlank(key) && forall k :: 0 <= k < |p.lines| ==> !StartsWithLabel(p.lines[k], key)
    ensures r.Err? ==> r.error == InvalidArgument || r.error == NotFound
    ensures r.Ok? ==> exists k :: IsFirstMatch(p.lines, LabelMatcher(key), k) && p.lines[k] == r.value
  {
    var found :- GetLineByLabelOrNull(p, key);
    match found
    case None => Err(NotFound)
    case Some(l) => Ok(l)
  }

  /** `GetRequiredValueLine`: the labelled line, which must have a value
      field after the label. */
  function GetRequiredValueLine(p: CsvParser, key: string): (r: Result<CsvLine, CsvError>)
    ensures r.Ok? ==> |r.value.parts| >= 2 && r == GetRequiredLineByLabel(p, key)
    ensures GetRequiredLineByLabel(p, key).Err? ==> r == GetRequiredLineByLabel(p, key)
    ensures r == Err(NoValue) <==>
      GetRequiredLineByLabel(p, key).Ok? && |GetRequiredLineByLabel(p, key).value.parts| < 2
    ensures r.Ok? <==>
      GetRequiredLineByLabel(p, key).Ok? && |GetRequiredLineByLabel(p, key).value.parts| >= 2
  {
    var found :- GetRequiredLineByLabel(p, key);
    if |found.parts| < 2 then Err(NoValue) else Ok(found)
  }

  /** The value fields of a line: every field after the label that is not blank. */
  function NonBlankValues(parts: seq<string>): (values: seq<string>)
    requires |parts| >= 1
    ensures |values| < |parts|
    ensures forall i :: 0 <= i < |values| ==> !IsBlank(values[i]) && values[i] in parts[1..]
    ensures forall i :: 1 <= i < |parts| && !IsBlank(parts[i]) ==> parts[i] in values
    ensures forall v :: multiset(values)[v] == if IsNonBlank(v) then multiset(parts[1..])[v] else 0
  {
    assert forall i :: 1 <= i < |parts| ==> parts[1..][i - 1] == parts[i];
    WhereCounts(parts[1..], IsNonBlank);
    Where(parts[1..], IsNonBlank)
  }

  /** The selected values keep the order of the fields: value i is the field
      at position `idx[i] + 1`, for strictly increasing positions after the
      label, each holding a non-blank field. */
  lemma NonBlankValuesInOrder(parts: seq<string>)
    requires |parts| >= 1
    ensures var values := NonBlankValues(parts);
      var idx := WhereIndices(parts[1..], IsNonBlank);
      && |idx| == |values|
      && (forall i :: 0 <= i < |idx| ==> idx[i] + 1 < |parts| && values[i] == parts[idx[i] + 1])
      && (forall i :: 0 <= i < |idx| ==> !IsBlank(parts[idx[i] + 1]))
      && (forall i, j :: 0 <= i < j < |idx| ==> idx[i] < idx[j])
  {
    var idx := WhereIndices(parts[1..], IsNonBlank);
    forall i | 0 <= i < |idx| ensures parts[1..][idx[i]] == parts[idx[i] + 1] {
    }
  }

  predicate IsNonBlank(s: string) {
    !IsBlank(s)
  }

  /** `GetRequiredStringByLabel`: the non-blank value fields of the labelled
      line joined by the delimiter; a line without value field and a line
      whose value fields are all blank are errors. */
  function GetRequiredStringByLabel(p: CsvParser, key: string): (r: Result<string, CsvError>)
    ensures r.Ok? ==> !IsBlank(r.value)
    ensures GetRequiredLineByLabel(p, key).Err? ==> r == Err(GetRequiredLineByLabel(p, key).error)
    ensures r == Err(NoValue) <==> GetRequiredValueLine(p, key) == Err(NoValue)
    ensures r == Err(EmptyValue) <==>
      && GetRequiredValueLine(p, key).Ok?
      && var parts := GetRequiredValueLine(p, key).value.parts;
         forall i :: 1 <= i < |parts| ==> IsBlank(parts[i])
    ensures r.Ok? <==>
      && GetRequiredValueLine(p, key).Ok?
      && var parts := GetRequiredValueLine(p, key).value.parts;
         exists i :: 1 <= i < |parts| && !IsBlank(parts[i])
  {
    var found :- GetRequiredLineByLabel(p, key);
    var parts := found.parts;
    if |parts| < 2 then Err(NoValue)
    else
      var values := NonBlankValues(parts);
      var combined := Join(values, p.delimiter);
      JoinBlankIffNoParts(values, p.delimiter);
      NoNonBlankValues(parts);
      if IsBlank(combined) then Err(EmptyValue) else Ok(combined)
  }

  /** A join of non-blank parts is blank exactly when there are no parts. */
  lemma JoinBlankIffNoParts(values: seq<string>, d: char)
    requires forall i :: 0 <= i < |values| ==> IsNonBlank(values[i])
    ensures IsBlank(Join(values, d)) <==> |values| == 0
  {
    if |values| > 0 {
      var k :| 0 <= k < |values[0]| && !IsWhiteSpace(values[0][k]);
      JoinContainsParts(values, d, 0, values[0][k]);
    }
  }

  /** There are no non-blank value fields exactly when every field after the
      label is blank. */
  lemma NoNonBlankValues(parts: seq<string>)
    requires |parts| >= 1
    ensures |NonBlankValues(parts)| == 0 <==> forall i :: 1 <= i < |parts| ==> IsBlank(parts[i])
  {
    var tail := parts[1..];
    var values := NonBlankValues(parts);
    if exists i :: 1 <= i < |parts| && !IsBlank(parts[i]) {
      var i :| 1 <= i < |parts| && !IsBlank(parts[i]);
      assert tail[i - 1] == parts[i];
    }
    if |values| > 0 {
      var j :| 0 <= j < |tail| && tail[j] == values[0];
      assert parts[j + 1] == values[0];
    }
  }

  // ---------------------------------------------------------------------------
  // Typed value accessors
  // ---------------------------------------------------------------------------

  /** `GetRequiredIntByLabel`: the second field of the labelled line, parsed
      by `int.Parse`; its errors propagate. */
  function GetRequiredIntByLabel(p: CsvParser, key: string): (r: Result<int, CsvError>)
    ensures r.Ok? ==> Int32Min <= r.value <= Int32Max
    ensures GetRequiredValueLine(p, key).Err? ==> r == Err(GetRequiredValueLine(p, key).error)
    ensures GetRequiredValueLine(p, key).Ok? ==>
      var field := GetRequiredValueLine(p, key).value.parts[1];
      && (r.Ok? <==> ParseInt32(field).Ok?)
      && (r.Ok? ==> r.value == ParseInt32(field).value)
      && (r.Err? ==> r.error == NumberFormat(ParseInt32(field).error))
  {
    var found :- GetRequiredValueLine(p, key);
    match ParseInt32(found.parts[1])
    case Ok(n) => Ok(n)
    case Err(e) => Err(NumberFormat(e))
  }

  /** `GetRequiredDoubleByLabel`, with `double.Parse` supplied by the caller. */
  function GetRequiredDoubleByLabel<D>(p: CsvParser, key: string, parseDouble: string -> Result<D, NumberError>)
    : (r: Result<D, CsvError>)
    ensures GetRequiredValueLine(p, key).Err? ==> r == Err(GetRequiredValueLine(p, key).error)
    ensures GetRequiredValueLine(p, key).Ok? ==>
      var field := GetRequiredValueLine(p, key).value.parts[1];
      && (r.Ok? <==> parseDouble(field).Ok?)
      && (r.Ok? ==> r.value == parseDouble(field).value)
      && (r.Err? ==> r.error == NumberFormat(parseDouble(field).error))
  {
    var found :- GetRequiredValueLine(p, key);
    match parseDouble(found.parts[1])
    case Ok(x) => Ok(x)
    case Err(e) => Err(NumberFormat(e))
  }

  /** `GetRequiredBooleanByLabelOrDefault`: the second field of the labelled
      line as a boolean, `true` when it is not a boolean literal; label and
      value-field errors still propagate. */
  function GetRequiredBooleanByLabelOrDefault(p: CsvParser, key: string): (r: Result<bool, CsvError>)
    ensures r.Err? <==> GetRequiredValueLine(p, key).Err?
    ensures r.Err? ==> r.error == GetRequiredValueLine(p, key).error
    ensures r == Ok(false) <==>
      GetRequiredValueLine(p, key).Ok? && TryParseBool(GetRequiredValueLine(p, key).value.parts[1]) == Some(false)
  {
    var found :- GetRequiredValueLine(p, key);
    match TryParseBool(found.parts[1])
    case Some(b) => Ok(b)
    case None => Ok(true)
  }

  // ---------------------------------------------------------------------------
  // Filters and numbering
  // ---------------------------------------------------------------------------

  /** `GetFirstLineByFilterOrNull`: the first line the filter accepts. */
  function GetFirstLineByFilterOrNull(p: CsvParser, filter: CsvLine -> bool): (r: Option<CsvLine>)
    ensures r.None? <==> forall k :: 0 <= k < |p.lines| ==> !filter(p.lines[k])
    ensures r.Some? ==> exists k :: IsFirstMatch(p.lines, filter, k) && p.lines[k] == r.value
  {
    FirstOrDefault(p.lines, filter)
  }

  /** `GetAllLinesByFilter`: every line the filter accepts, in input order. */
  function GetAllLinesByFilter(p: CsvParser, filter: CsvLine -> bool): (r: seq<CsvLine>)
    ensures forall i :: 0 <= i < |r| ==> filter(r[i])
    ensures forall l :: multiset(r)[l] == if filter(l) then multiset(p.lines)[l] else 0
  {
    WhereCounts(p.lines, filter);
    Where(p.lines, filter)
  }

  /** `GetLastLineNum`: the number of the last line, 0 without lines; for a
      constructed parser that is the line count. */
  function GetLastLineNum(p: CsvParser): (r: nat)
    ensures |p.lines| == 0 ==> r == 0
    ensures IsNumbered(p.lines) ==> r == |p.lines|
  {
    if |p.lines| > 0 then p.lines[|p.lines| - 1].lineNumber else 0
  }
}

=== FILE: csv_parser_examples.dfy ===
/** Worked examples of the parser on small inputs. */
module CsvParserExamples {
  import opened Results
  import opened Text
  import opened StringReader
  import opened Linq
  import opened NumberParsing
  import opened CsvParsing
  import opened CsvParserProperties

  // ---------------------------------------------------------------------------
  // "A,1\nB,2\n": case-insensitive label lookup and an integer value
  // ---------------------------------------------------------------------------

  lemma TwoFieldLine(a: string, b: string)
    requires |a| > 0 && |b| > 0
    requires IsTrimmed(a) && IsTrimmed(b) && ',' !in a && ',' !in b
    ensures SplitToParts(a + "," + b, ',') == [a, b]
  {
    assert Join([a, b], ',') == a + "," + b;
    assert (a + "," + b)[0] == a[0];
    SplitToPartsOfJoin([a, b], ',');
  }

  lemma TwoLinesText()
    ensures InputLines(Some("A,1\nB,2\n")) == ["A,1", "B,2"]
  {
    ReadLinesOfWritten(["A,1", "B,2"], ["\n", "\n"]);
    assert Written(["A,1", "B,2"], ["\n", "\n"]) == "A,1\nB,2\n";
  }

  lemma FieldsOfA()
    ensures SplitToParts("A,1", ',') == ["A", "1"]
  {
    TwoFieldLine("A", "1");
    assert "A" + "," + "1" == "A,1";
  }

  lemma FieldsOfB()
    ensures SplitToParts("B,2", ',') == ["B", "2"]
  {
    TwoFieldLine("B", "2");
    assert "B" + "," + "2" == "B,2";
  }

  /** Each line of "A,1\nB,2\n" is numbered and split. */
  lemma TwoLinesParsed()
    ensures New(Some("A,1\nB,2\n")).lines ==
      [CsvLine(1, "A,1", ["A", "1"]), CsvLine(2, "B,2", ["B", "2"])]
  {
    TwoLinesText();
    FieldsOfA();
    FieldsOfB();
    var p := New(Some("A,1\nB,2\n"));
    assert |p.lines| == 2;
    assert p.lines[0].originalLine == "A,1";
    assert p.lines[1].originalLine == "B,2";
  }

  lemma LookupLowerCaseA(p: CsvParser)
    requires p.lines == [CsvLine(1, "A,1", ["A", "1"]), CsvLine(2, "B,2", ["B", "2"])]
    ensures GetLineByLabelOrNull(p, "a") == Ok(Some(CsvLine(1, "A,1", ["A", "1"])))
  {
    assert !IsWhiteSpace("a"[0]);
    assert FoldCase("A"[0]) == FoldCase("a"[0]);
    assert LabelMatcher("a")(p.lines[0]);
    assert FirstIndex(p.lines, LabelMatcher("a")) == Some(0);
  }

  lemma RequiredIntB(p: CsvParser)
    requires p.lines == [CsvLine(1, "A,1", ["A", "1"]), CsvLine(2, "B,2", ["B", "2"])]
    ensures GetRequiredIntByLabel(p, "B") == Ok(2)
  {
    assert !IsWhiteSpace("B"[0]);
    assert FoldCase(p.lines[0].parts[0][0]) != FoldCase("B"[0]);
    assert !LabelMatcher("B")(p.lines[0]);
    assert LabelMatcher("B")(p.lines[1]);
    assert FirstIndex(p.lines, LabelMatcher("B")) == Some(1);
    assert GetRequiredValueLine(p, "B") == Ok(p.lines[1]);
    assert FormatInt(2) == "2";
    ParseFormatInt(2);
  }

  /** In "A,1\nB,2\n" the label "a" finds line 1 and "B" holds the integer 2. */
  lemma TwoLinesLookups()
    ensures GetLineByLabelOrNull(New(Some("A,1\nB,2\n")), "a") == Ok(Some(CsvLine(1, "A,1", ["A", "1"])))
    ensures GetRequiredIntByLabel(New(Some("A,1\nB,2\n")), "B") == Ok(2)
    ensures GetLastLineNum(New(Some("A,1\nB,2\n"))) == 2
  {
    TwoLinesParsed();
    LookupLowerCaseA(New(Some("A,1\nB,2\n")));
    RequiredIntB(New(Some("A,1\nB,2\n")));
  }

  // ---------------------------------------------------------------------------
  // Single-line texts: joining values, a missing value, a non-boolean value
  // ---------------------------------------------------------------------------

  lemma FieldsOfEmptyMiddle()
    ensures SplitToParts("X,,foo", ',') == ["X", "", "foo"]
  {
    assert Join(["X", "", "foo"], ',') == "X,,foo";
    assert !IsWhiteSpace("X,,foo"[0]);
    SplitToPartsOfJoin(["X", "", "foo"], ',');
  }

  lemma RequiredStringSkipsBlank(p: CsvParser)
    requires p.lines == [CsvLine(1, "X,,foo", ["X", "", "foo"])]
    requires p.delimiter == ','
    ensures GetRequiredStringByLabel(p, "X") == Ok("foo")
  {
    assert !IsWhiteSpace("X"[0]);
    assert LabelMatcher("X")(p.lines[0]);
    assert FirstIndex(p.lines, LabelMatcher("X")) == Some(0);
    var tail := ["", "foo"];
    assert p.lines[0].parts[1..] == tail;
    assert !IsBlank("foo") by { assert !IsWhiteSpace("foo"[0]); }
    assert Where(tail[1..], IsNonBlank) == ["foo"];
    assert NonBlankValues(p.lines[0].parts) == ["foo"];
  }

  lemma EmptyMiddleParsed()
    ensures New(Some("X,,foo")).lines == [CsvLine(1, "X,,foo", ["X", "", "foo"])]
  {
    ReadLinesOfSingleLine("X,,foo");
    var p := New(Some("X,,foo"));
    assert |p.lines| == 1;
    assert p.lines[0].originalLine == "X,,foo";
    FieldsOfEmptyMiddle();
  }

  /** On the line "X,,foo" the required string of "X" skips the blank field
      and is "foo". */
  lemma EmptyMiddleField()
    ensures GetRequiredStringByLabel(New(Some("X,,foo")), "X") == Ok("foo")
  {
    EmptyMiddleParsed();
    RequiredStringSkipsBlank(New(Some("X,,foo")));
  }

  lemma LabelOnlyLine(p: CsvParser)
    requires p.lines == [CsvLine(1, "X", ["X"])]
    ensures GetRequiredStringByLabel(p, "X") == Err(NoValue)
    ensures GetRequiredBooleanByLabelOrDefault(p, "X") == Err(NoValue)
  {
    assert !IsWhiteSpace("X"[0]);
    assert LabelMatcher("X")(p.lines[0]);
    assert FirstIndex(p.lines, LabelMatcher("X")) == Some(0);
  }

  /** The line "X" has no value field: the required string of "X" fails. */
  lemma LabelWithoutValue()
    ensures GetRequiredStringByLabel(New(Some("X")), "X") == Err(NoValue)
  {
    assert HasNoLineBreak("X");
    ReadLinesOfSingleLine("X");
    var p := New(Some("X"));
    assert |p.lines| == 1;
    assert p.lines[0].originalLine == "X";
    assert !IsWhiteSpace("X"[0]);
    SplitToPartsOfField("X", ',');
    LabelOnlyLine(New(Some("X")));
  }

  lemma NotABoolean(p: CsvParser)
    requires p.lines == [CsvLine(1, "X,notabool", ["X", "notabool"])]
    ensures GetRequiredBooleanByLabelOrDefault(p, "X") == Ok(true)
  {
    assert !IsWhiteSpace("X"[0]);
    assert LabelMatcher("X")(p.lines[0]);
    assert FirstIndex(p.lines, LabelMatcher("X")) == Some(0);
    var field := "notabool";
    assert IsTrimmedBy(field, IsWhiteSpaceOrNull);
    TrimWithPadded([], field, [], IsWhiteSpaceOrNull);
    assert [] + field + [] == field;
    assert TryParseBool(field) == None;
  }

  lemma FieldsOfNotABool()
    ensures SplitToParts("X,notabool", ',') == ["X", "notabool"]
  {
    assert Join(["X", "notabool"], ',') == "X,notabool";
    assert !IsWhiteSpace("X,notabool"[0]);
    SplitToPartsOfJoin(["X", "notabool"], ',');
  }

  lemma NotABooleanParsed()
    ensures New(Some("X,notabool")).lines == [CsvLine(1, "X,notabool", ["X", "notabool"])]
  {
    ReadLinesOfSingleLine("X,notabool");
    var p := New(Some("X,notabool"));
    assert |p.lines| == 1;
    assert p.lines[0].originalLine == "X,notabool";
    FieldsOfNotABool();
  }

  /** A value that is not a boolean literal reads as `true`, not as an error. */
  lemma NonBooleanDefaultsToTrue()
    ensures GetRequiredBooleanByLabelOrDefault(New(Some("X,notabool")), "X") == Ok(true)
  {
    NotABooleanParsed();
    NotABoolean(New(Some("X,notabool")));
  }
}

=== FILE: csv_parser_properties.dfy ===
/** Facts about `CsvParsing` that relate several operations, or an operation
    to an independent description of its result. */
module CsvParserProperties {
  import opened Results
  import opened Text
  import opened StringReader
  import opened Linq
  import opened NumberParsing
  import opened CsvParsing

  // ---------------------------------------------------------------------------
  // Construction and numbering
  // ---------------------------------------------------------------------------

  /** No text (`null`) and empty text both give a parser without lines, whose
      last line number is 0 and which has no non-blank line. */
  lemma EmptyInput(d: char)
    ensures New(None, d).lines == []
    ensures New(Some(""), d).lines == []
    ensures GetLastLineNum(New(None, d)) == 0
    ensures GetFirstNonEmptyLineOrNull(New(Some(""), d)) == None
  {
  }

  /** Lines written with a terminator each ("\r\n", "\r" and "\n" mixed at
      will, the last one possibly omitted) are read back one for one: the
      k-th written line becomes line number k + 1 with that text, and the
      last line number is the number of lines written. */
  lemma LinesOfTerminatedText(written: seq<string>, ts: seq<string>, d: char)
    requires IsWriting(written, ts)
    ensures var p := New(Some(Written(written, ts)), d);
      && |p.lines| == |written|
      && GetLastLineNum(p) == |written|
      && forall k :: 0 <= k < |written| ==>
           p.lines[k].lineNumber == k + 1 && p.lines[k].originalLine == written[k]
  {
    ReadLinesOfWritten(written, ts);
  }

  // ---------------------------------------------------------------------------
  // Fields
  // ---------------------------------------------------------------------------

  /** A trimmed field without the delimiter splits into itself alone (or into
      nothing when it is empty): re-parsing a field changes nothing. */
  lemma SplitToPartsOfField(field: string, d: char)
    requires IsTrimmed(field)
    requires d !in field
    ensures SplitToParts(field, d) == if |field| == 0 then [] else [field]
  {
    if |field| > 0 {
      assert !IsWhiteSpace(field[0]);
      SplitWithoutSeparator(field, d);
      TrimOfTrimmed(field);
    }
  }

  /** Every field of a constructed parser is its own trim and re-parses to itself. */
  lemma FieldsAreStable(p: CsvParser, k: nat, i: nat)
    requires IsValid(p)
    requires k < |p.lines| && i < |p.lines[k].parts|
    ensures Trim(p.lines[k].parts[i]) == p.lines[k].parts[i]
    ensures var f := p.lines[k].parts[i];
      SplitToParts(f, p.delimiter) == if |f| == 0 then [] else [f]
  {
    TrimOfTrimmed(p.lines[k].parts[i]);
    SplitToPartsOfField(p.lines[k].parts[i], p.delimiter);
  }

  /** Round trip: trimmed fields without the delimiter, joined by it into a
      non-blank line, are split back into the same fields. */
  lemma SplitToPartsOfJoin(fields: seq<string>, d: char)
    requires |fields| > 0
    requires forall i :: 0 <= i < |fields| ==> IsTrimmed(fields[i]) && d !in fields[i]
    requires !IsBlank(Join(fields, d))
    ensures SplitToParts(Join(fields, d), d) == fields
  {
    SplitJoin(fields, d);
    forall i | 0 <= i < |fields| ensures Trim(fields[i]) == fields[i] {
      TrimOfTrimmed(fields[i]);
    }
  }

  /** The segments of a line, each padded with white space (but not with the
      delimiter) around its core. */
  function PaddedSegments(cores: seq<string>, before: seq<string>, after: seq<string>): (segments: seq<string>)
    requires |before| == |cores| == |after|
    ensures |segments| == |cores|
    ensures forall i :: 0 <= i < |cores| ==> segments[i] == before[i] + cores[i] + after[i]
  {
    seq(|cores|, i requires 0 <= i < |cores| => before[i] + cores[i] + after[i])
  }

  /** Fields are the trimmed segments: a non-blank line whose segments are
      trimmed, delimiter-free cores with white space around them splits into
      exactly those cores (" a , b " gives "a" and "b"). */
  lemma SplitToPartsOfPaddedJoin(cores: seq<string>, before: seq<string>, after: seq<string>, d: char)
    requires |cores| > 0 && |before| == |cores| == |after|
    requires forall i :: 0 <= i < |cores| ==> IsTrimmed(cores[i]) && d !in cores[i]
    requires forall i :: 0 <= i < |cores| ==> IsBlank(before[i]) && d !in before[i]
    requires forall i :: 0 <= i < |cores| ==> IsBlank(after[i]) && d !in after[i]
    requires !IsBlank(Join(PaddedSegments(cores, before, after), d))
    ensures SplitToParts(Join(PaddedSegments(cores, before, after), d), d) == cores
  {
    var segments := PaddedSegments(cores, before, after);
    forall i | 0 <= i < |segments| ensures d !in segments[i] {
      assert segments[i] == before[i] + cores[i] + after[i];
    }
    SplitJoin(segments, d);
    forall i | 0 <= i < |segments| ensures Trim(segments[i]) == cores[i] {
      TrimWithPadded(before[i], cores[i], after[i], IsWhiteSpace);
    }
  }

  /** The fields of a line are the trimmed segments between delimiters:
      joining them back gives the line with the white space around each
      segment removed, so a line without such white space is rebuilt exactly. */
  lemma JoinOfPartsOfTrimmedSegments(line: string, d: char)
    requires !IsBlank(line)
    requires forall i :: 0 <= i < |Split(line, d)| ==> IsTrimmed(Split(line, d)[i])
    ensures Join(SplitToParts(line, d), d) == line
  {
    var segments := Split(line, d);
    forall i | 0 <= i < |segments| ensures Trim(segments[i]) == segments[i] {
      TrimOfTrimmed(segments[i]);
    }
    assert SplitToParts(line, d) == segments;
    JoinSplit(line, d);
  }

  // ---------------------------------------------------------------------------
  // Queries
  // ---------------------------------------------------------------------------

  /** A line found by a filter sits at the position its number names, and it
      is the first line there that the filter accepts. */
  lemma FirstLineByFilterIsAtItsNumber(p: CsvParser, filter: CsvLine -> bool)
    requires IsNumbered(p.lines)
    requires GetFirstLineByFilterOrNull(p, filter).Some?
    ensures var l := GetFirstLineByFilterOrNull(p, filter).value;
      1 <= l.lineNumber && IsFirstMatch(p.lines, filter, l.lineNumber - 1)
  {
    var l := GetFirstLineByFilterOrNull(p, filter).value;
    var k :| IsFirstMatch(p.lines, filter, k) && p.lines[k] == l;
    assert l.lineNumber == k + 1;
  }

  /** The first line a filter accepts is the head of all lines it accepts. */
  lemma FirstLineByFilterIsFirstOfAll(p: CsvParser, filter: CsvLine -> bool)
    ensures var all := GetAllLinesByFilter(p, filter);
      GetFirstLineByFilterOrNull(p, filter) == if |all| == 0 then None else Some(all[0])
  {
    FirstOrDefaultIsHeadOfWhere(p.lines, filter);
  }

  function LineNumberOf(l: CsvLine): int {
    l.lineNumber
  }

  /** Each kept element of a numbered line list is the line of its number. */
  lemma WhereLinesAtTheirNumbers(lines: seq<CsvLine>, filter: CsvLine -> bool)
    requires IsNumbered(lines)
    ensures var r := Where(lines, filter);
      forall i :: 0 <= i < |r| ==> 1 <= r[i].lineNumber <= |lines| && lines[r[i].lineNumber - 1] == r[i]
  {
    var r := Where(lines, filter);
    forall i | 0 <= i < |r|
      ensures 1 <= r[i].lineNumber <= |lines| && lines[r[i].lineNumber - 1] == r[i]
    {
      var k :| 0 <= k < |lines| && lines[k] == r[i];
      assert r[i].lineNumber == k + 1;
    }
  }

  /** Line numbers strictly increase along the kept lines of a numbered list. */
  lemma WhereLinesIncreasing(lines: seq<CsvLine>, filter: CsvLine -> bool)
    requires IsNumbered(lines)
    ensures var r := Where(lines, filter);
      forall i, j :: 0 <= i < j < |r| ==> r[i].lineNumber < r[j].lineNumber
  {
    assert IncreasingBy(lines, LineNumberOf);
    WhereKeepsOrder(lines, filter, LineNumberOf);
    var r := Where(lines, filter);
    forall i, j | 0 <= i < j < |r| ensures r[i].lineNumber < r[j].lineNumber {
      assert LineNumberOf(r[i]) < LineNumberOf(r[j]);
    }
  }

  /** The lines a filter accepts come back in strictly increasing line
      number, each being the parser's line of that number: an
      order-preserving sub-list without repeats. */
  lemma AllLinesByFilterInOrder(p: CsvParser, filter: CsvLine -> bool)
    requires IsNumbered(p.lines)
    ensures var r := GetAllLinesByFilter(p, filter);
      && (forall i, j :: 0 <= i < j < |r| ==> r[i].lineNumber < r[j].lineNumber)
      && (forall i :: 0 <= i < |r| ==>
            1 <= r[i].lineNumber <= |p.lines| && p.lines[r[i].lineNumber - 1] == r[i])
  {
    var r := GetAllLinesByFilter(p, filter);
    assert r == Where(p.lines, filter);
    WhereLinesIncreasing(p.lines, filter);
    WhereLinesAtTheirNumbers(p.lines, filter);
  }

  /** A filter that accepts no line gives the empty list, not an error, and
      only such a filter does. */
  lemma AllLinesByFilterEmpty(p: CsvParser, filter: CsvLine -> bool)
    ensures GetAllLinesByFilter(p, filter) == [] <==> forall k :: 0 <= k < |p.lines| ==> !filter(p.lines[k])
  {
    var r := GetAllLinesByFilter(p, filter);
    if exists k :: 0 <= k < |p.lines| && filter(p.lines[k]) {
      var k :| 0 <= k < |p.lines| && filter(p.lines[k]);
      assert p.lines[k] in r;
    }
  }

  /** A labelled line is never blank, so whenever a label lookup succeeds
      there is a first non-blank line, and it comes no later. */
  lemma LabelledLineFollowsFirstNonEmpty(p: CsvParser, key: string)
    requires IsValid(p)
    ensures var found := GetLineByLabelOrNull(p, key);
      found.Ok? && found.value.Some? ==>
        && IsNonBlankLine(found.value.value)
        && GetFirstNonEmptyLineOrNull(p).Some?
        && GetFirstNonEmptyLineOrNull(p).value.lineNumber <= found.value.value.lineNumber
  {
    var found := GetLineByLabelOrNull(p, key);
    if !(found.Ok? && found.value.Some?) {
      return;
    }
    var l := found.value.value;
    var k :| IsFirstMatch(p.lines, LabelMatcher(key), k) && p.lines[k] == l;
    assert StartsWithLabel(l, key);
    var m := GetFirstNonEmptyLineOrNull(p).value;
    var j :| IsFirstMatch(p.lines, IsNonBlankLine, j) && p.lines[j] == m;
    assert j <= k;
  }

  // ---------------------------------------------------------------------------
  // Required values
  // ---------------------------------------------------------------------------

  /** The non-blank value fields of trimmed, delimiter-free fields are
      themselves trimmed, delimiter-free and non-blank. */
  lemma NonBlankValuesAreFields(parts: seq<string>, d: char)
    requires |parts| >= 1
    requires forall i :: 0 <= i < |parts| ==> IsTrimmed(parts[i]) && d !in parts[i]
    ensures var values := NonBlankValues(parts);
      forall i :: 0 <= i < |values| ==> !IsBlank(values[i]) && IsTrimmed(values[i]) && d !in values[i]
  {
    var values := NonBlankValues(parts);
    forall i | 0 <= i < |values| ensures !IsBlank(values[i]) && IsTrimmed(values[i]) && d !in values[i] {
      var j :| 0 <= j < |parts[1..]| && parts[1..][j] == values[i];
      assert parts[j + 1] == values[i];
    }
  }

  /** A line found by label in a constructed parser has trimmed,
      delimiter-free fields. */
  lemma FoundLineFields(p: CsvParser, key: string)
    requires IsSplit(p.lines, p.delimiter)
    ensures GetRequiredLineByLabel(p, key).Ok? ==>
      var parts := GetRequiredLineByLabel(p, key).value.parts;
      forall i :: 0 <= i < |parts| ==> IsTrimmed(parts[i]) && p.delimiter !in parts[i]
  {
    if GetRequiredLineByLabel(p, key).Err? {
      return;
    }
    var found := GetRequiredLineByLabel(p, key).value;
    var k :| IsFirstMatch(p.lines, LabelMatcher(key), k) && p.lines[k] == found;
    assert found.parts == SplitToParts(found.originalLine, p.delimiter);
  }

  /** A required string splits, on the delimiter, into the non-blank value
      fields of its line in their original order. */
  lemma RequiredStringSplitsIntoValues(p: CsvParser, key: string)
    requires IsSplit(p.lines, p.delimiter)
    ensures GetRequiredStringByLabel(p, key).Ok? ==> GetRequiredValueLine(p, key).Ok?
    ensures GetRequiredStringByLabel(p, key).Ok? ==>
      var values := NonBlankValues(GetRequiredValueLine(p, key).value.parts);
      && Split(GetRequiredStringByLabel(p, key).value, p.delimiter) == values
      && forall i :: 0 <= i < |values| ==> !IsBlank(values[i]) && IsTrimmed(values[i])
  {
    if GetRequiredStringByLabel(p, key).Err? {
      return;
    }
    var parts := GetRequiredLineByLabel(p, key).value.parts;
    FoundLineFields(p, key);
    NonBlankValuesAreFields(parts, p.delimiter);
    var values := NonBlankValues(parts);
    assert GetRequiredStringByLabel(p, key).value == Join(values, p.delimiter);
    SplitJoin(values, p.delimiter);
  }

  /** White space `int.Parse` would skip cannot surround a trimmed field. */
  lemma TrimmedFieldHasNoNumberWhite(field: string)
    requires IsTrimmed(field)
    ensures TrimWith(field, IsNumberWhite) == field
  {
    TrimWithPadded([], field, [], IsNumberWhite);
    assert [] + field + [] == field;
  }

  /** A required integer is a format error exactly when its field is not an
      optionally signed run of decimal digits. */
  lemma RequiredIntFormatError(p: CsvParser, key: string)
    requires IsSplit(p.lines, p.delimiter)
    ensures GetRequiredValueLine(p, key).Ok? ==>
      (GetRequiredIntByLabel(p, key) == Err(NumberFormat(Format)) <==>
       !IsIntegerLiteral(GetRequiredValueLine(p, key).value.parts[1]))
  {
    if GetRequiredValueLine(p, key).Err? {
      return;
    }
    var found := GetRequiredValueLine(p, key).value;
    var k :| IsFirstMatch(p.lines, LabelMatcher(key), k) && p.lines[k] == found;
    TrimmedFieldHasNoNumberWhite(found.parts[1]);
  }

  /** A field holding the rendering of a number reads back as that number,
      or fails with an overflow outside the 32-bit range. */
  lemma RequiredIntOfRenderedNumber(p: CsvParser, key: string, n: int)
    requires GetRequiredValueLine(p, key).Ok?
    requires GetRequiredValueLine(p, key).value.parts[1] == FormatInt(n)
    ensures Int32Min <= n <= Int32Max ==> GetRequiredIntByLabel(p, key) == Ok(n)
    ensures (n < Int32Min || Int32Max < n) ==> GetRequiredIntByLabel(p, key) == Err(NumberFormat(Overflow))
  {
    ParseFormatInt(n);
  }

  /** A boolean field reads as the literal it holds, in any letter case; any
      other field reads as `true`, the accessor's default. The result is
      `false` exactly when the field, stripped of white space and NUL
      characters, is "False" in some letter case. */
  lemma RequiredBooleanOfField(p: CsvParser, key: string)
    ensures GetRequiredValueLine(p, key).Ok? ==>
      var field := GetRequiredValueLine(p, key).value.parts[1];
      && (EqualsIgnoreCase(field, "False") ==> GetRequiredBooleanByLabelOrDefault(p, key) == Ok(false))
      && (GetRequiredBooleanByLabelOrDefault(p, key) == Ok(false) <==>
            EqualsIgnoreCase(TrimWith(field, IsWhiteSpaceOrNull), "False"))
      && (!EqualsIgnoreCase(field, "False") && !IsBlank(field) && IsTrimmedBy(field, IsWhiteSpaceOrNull)
          ==> GetRequiredBooleanByLabelOrDefault(p, key) == Ok(true))
  {
    if GetRequiredValueLine(p, key).Err? {
      return;
    }
    var field := GetRequiredValueLine(p, key).value.parts[1];
    if EqualsIgnoreCase(field, "False") {
      TryParseBoolLiteral([], field, [], false);
      assert [] + field + [] == field;
    }
    if EqualsIgnoreCase(TrimWith(field, IsWhiteSpaceOrNull), "False") {
      var t := TrimWith(field, IsWhiteSpaceOrNull);
      assert FoldCase(t[0]) == FoldCase('F');
      assert !EqualsIgnoreCase(t, "True");
    }
  }
}

=== FILE: linq.dfy ===
/** The `System.Linq` operators the parser uses over its line list:
    `FirstOrDefault(predicate)` and `Where(predicate)`. */
module Linq {
  import opened Results

  /** `i` is the position of the first element of `xs` that satisfies `p`. */
  predicate IsFirstMatch<T>(xs: seq<T>, p: T -> bool, i: int) {
    0 <= i < |xs| && p(xs[i]) && forall j :: 0 <= j < i ==> !p(xs[j])
  }

  /** Position of the first element satisfying `p`, if any. */
  function FirstIndex<T>(xs: seq<T>, p: T -> bool): (r: Option<nat>)
    ensures r.Some? ==> IsFirstMatch(xs, p, r.value)
    ensures r.None? <==> forall i :: 0 <= i < |xs| ==> !p(xs[i])
    decreases |xs|
  {
    if |xs| == 0 then None
    else if p(xs[0]) then Some(0)
    else match FirstIndex(xs[1..], p)
      case None => None
      case Some(i) => Some(i + 1)
  }

  /** `xs.FirstOrDefault(p)`: the first element satisfying `p`, or `None`
      (the C# `null`) when no element does. */
  function FirstOrDefault<T>(xs: seq<T>, p: T -> bool): (r: Option<T>)
    ensures r.None? <==> forall i :: 0 <= i < |xs| ==> !p(xs[i])
    ensures r.Some? ==> exists i :: IsFirstMatch(xs, p, i) && xs[i] == r.value
  {
    match FirstIndex(xs, p)
    case None => None
    case Some(i) => Some(xs[i])
  }

  /** `xs.Where(p).ToList()`: the elements satisfying `p`, in their order. */
  function Where<T>(xs: seq<T>, p: T -> bool): (r: seq<T>)
    ensures |r| <= |xs|
    ensures forall i :: 0 <= i < |r| ==> p(r[i]) && r[i] in xs
    ensures forall i :: 0 <= i < |xs| && p(xs[i]) ==> xs[i] in r
    decreases |xs|
  {
    if |xs| == 0 then []
    else if p(xs[0]) then [xs[0]] + Where(xs[1..], p)
    else Where(xs[1..], p)
  }

  /** `idx` lists strictly increasing positions of `xs` whose elements,
      in order, are `ys`. */
  ghost predicate IsSubsequenceAt<T>(ys: seq<T>, xs: seq<T>, idx: seq<nat>) {
    && |idx| == |ys|
    && (forall i :: 0 <= i < |idx| ==> idx[i] < |xs| && ys[i] == xs[idx[i]])
    && (forall i, j :: 0 <= i < j < |idx| ==> idx[i] < idx[j])
  }

  /** The positions in `xs` that `Where` keeps: `Where` is the sub-sequence
      of `xs` at strictly increasing positions, so it keeps input order. */
  function WhereIndices<T>(xs: seq<T>, p: T -> bool): (idx: seq<nat>)
    ensures IsSubsequenceAt(Where(xs, p), xs, idx)
    ensures forall i :: 0 <= i < |idx| ==> p(xs[idx[i]])
    decreases |xs|
  {
    if |xs| == 0 then []
    else
      var rest := WhereIndices(xs[1..], p);
      var shifted := ShiftIndices(rest);
      SubsequenceOfTail(Where(xs[1..], p), xs, rest, shifted);
      if p(xs[0]) then
        SubsequenceCons(xs, Where(xs[1..], p), shifted);
        [0] + shifted
      else shifted
  }

  /** Every position one further on. */
  function ShiftIndices(idx: seq<nat>): (r: seq<nat>)
    ensures |r| == |idx|
    ensures forall i :: 0 <= i < |idx| ==> r[i] == idx[i] + 1
  {
    seq(|idx|, i requires 0 <= i < |idx| => idx[i] + 1)
  }

  /** A sub-sequence of the tail of `xs` is one of `xs`, one position on. */
  lemma SubsequenceOfTail<T>(ys: seq<T>, xs: seq<T>, idx: seq<nat>, shifted: seq<nat>)
    requires |xs| > 0
    requires IsSubsequenceAt(ys, xs[1..], idx)
    requires |shifted| == |idx| && forall i :: 0 <= i < |idx| ==> shifted[i] == idx[i] + 1
    ensures IsSubsequenceAt(ys, xs, shifted)
    ensures forall i :: 0 <= i < |shifted| ==> shifted[i] >= 1
  {
    forall i | 0 <= i < |idx| ensures shifted[i] < |xs| && ys[i] == xs[shifted[i]] {
      assert xs[1..][idx[i]] == xs[idx[i] + 1];
    }
  }

  /** Putting the head of `xs` in front of a sub-sequence at positions after
      it gives a sub-sequence at position 0 and those positions. */
  lemma SubsequenceCons<T>(xs: seq<T>, ys: seq<T>, idx: seq<nat>)
    requires |xs| > 0
    requires IsSubsequenceAt(ys, xs, idx)
    requires forall i :: 0 <= i < |idx| ==> idx[i] >= 1
    ensures IsSubsequenceAt([xs[0]] + ys, xs, [0] + idx)
  {
    var r, zs := [0] + idx, [xs[0]] + ys;
    forall i | 0 <= i < |r| ensures r[i] < |xs| && zs[i] == xs[r[i]] {
      if i > 0 { assert r[i] == idx[i - 1] && zs[i] == ys[i - 1]; }
    }
    forall i, j | 0 <= i < j < |r| ensures r[i] < r[j] {
      assert r[j] == idx[j - 1];
      if i > 0 { assert r[i] == idx[i - 1]; }
    }
  }

  /** `Where` keeps each element satisfying `p` exactly as often as it occurs
      and drops every other element. */
  lemma {:induction false} WhereCounts<T(!new)>(xs: seq<T>, p: T -> bool)
    ensures forall x :: multiset(Where(xs, p))[x] == if p(x) then multiset(xs)[x] else 0
    decreases |xs|
  {
    if |xs| > 0 {
      WhereCounts(xs[1..], p);
      assert xs == [xs[0]] + xs[1..];
    }
  }

  /** Filtering distributes over concatenation: `Where` keeps the relative
      order of the elements it keeps. */
  lemma {:induction false} WhereAppend<T>(xs: seq<T>, ys: seq<T>, p: T -> bool)
    ensures Where(xs + ys, p) == Where(xs, p) + Where(ys, p)
    decreases |xs|
  {
    if |xs| > 0 {
      assert (xs + ys)[1..] == xs[1..] + ys;
      WhereAppend(xs[1..], ys, p);
    } else {
      assert xs + ys == ys;
    }
  }

  /** `FirstOrDefault(p)` is the head of `Where(p)`, or `None` when that is empty. */
  lemma {:induction false} FirstOrDefaultIsHeadOfWhere<T>(xs: seq<T>, p: T -> bool)
    ensures FirstOrDefault(xs, p) == if |Where(xs, p)| == 0 then None else Some(Where(xs, p)[0])
    decreases |xs|
  {
    if |xs| > 0 && !p(xs[0]) {
      FirstOrDefaultIsHeadOfWhere(xs[1..], p);
      match FirstIndex(xs[1..], p)
      case None =>
      case Some(i) => assert xs[1..][i] == xs[i + 1];
    }
  }

  /** `key` strictly increases along `s`. */
  predicate IncreasingBy<T>(s: seq<T>, key: T -> int) {
    forall i, j :: 0 <= i < j < |s| ==> key(s[i]) < key(s[j])
  }

  /** Every element `Where` keeps from the tail of `xs` has a larger key than
      the head of `xs`, when the key increases along `xs`. */
  lemma HeadBelowFilteredTail<T>(xs: seq<T>, p: T -> bool, key: T -> int, y: T)
    requires |xs| > 0
    requires IncreasingBy(xs, key)
    requires y in Where(xs[1..], p)
    ensures key(xs[0]) < key(y)
  {
    var tail := xs[1..];
    var m :| 0 <= m < |tail| && tail[m] == y;
    assert xs[m + 1] == y;
  }

  /** Putting an element below every key of an increasing list in front of
      it keeps the list increasing. */
  lemma ConsIncreasing<T>(x: T, s: seq<T>, key: T -> int)
    requires IncreasingBy(s, key)
    requires forall j :: 0 <= j < |s| ==> key(x) < key(s[j])
    ensures IncreasingBy([x] + s, key)
  {
    var r := [x] + s;
    forall i, j | 0 <= i < j < |r| ensures key(r[i]) < key(r[j]) {
      assert r[j] == s[j - 1];
      if i > 0 {
        assert r[i] == s[i - 1];
      }
    }
  }

  /** `Where` keeps elements in their input order: when a key strictly
      increases along `xs`, it strictly increases along the filtered list. */
  lemma {:induction false} WhereKeepsOrder<T>(xs: seq<T>, p: T -> bool, key: T -> int)
    requires IncreasingBy(xs, key)
    ensures IncreasingBy(Where(xs, p), key)
    decreases |xs|
  {
    if |xs| > 0 {
      var tail := xs[1..];
      assert IncreasingBy(tail, key) by {
        assert forall i :: 0 <= i < |tail| ==> tail[i] == xs[i + 1];
      }
      WhereKeepsOrder(tail, p, key);
      if p(xs[0]) {
        var rest := Where(tail, p);
        forall j | 0 <= j < |rest| ensures key(xs[0]) < key(rest[j]) {
          HeadBelowFilteredTail(xs, p, key, rest[j]);
        }
        ConsIncreasing(xs[0], rest, key);
      }
    }
  }

}

=== FILE: number_parsing.dfy ===
/** The two .NET parsers the typed accessors call: `int.Parse(string)` with
    the default integer style and the invariant culture's signs, and
    `bool.TryParse(string, out bool)`. */
module NumberParsing {
  import opened Results
  import opened Text

  /** `FormatException` (not a number) and `OverflowException` (outside `int`). */
  datatype NumberError = Format | Overflow

  const Int32Min: int := -0x8000_0000
  const Int32Max: int := 0x7FFF_FFFF

  /** The white space `int.Parse` tolerates around a number. */
  predicate IsNumberWhite(c: char) {
    c == ' ' || '\t' <= c <= '\r'
  }

  predicate IsDigit(c: char) {
    '0' <= c <= '9'
  }

  /** One or more decimal digits. */
  predicate IsDigits(s: string) {
    |s| > 0 && forall i :: 0 <= i < |s| ==> IsDigit(s[i])
  }

  /** An optional `+` or `-` followed by decimal digits. */
  predicate IsIntegerLiteral(s: string) {
    IsDigits(s) || (|s| > 0 && (s[0] == '+' || s[0] == '-') && IsDigits(s[1..]))
  }

  function DigitValue(c: char): nat
    requires IsDigit(c)
  {
    c as int - '0' as int
  }

  /** The value of a decimal digit string, most significant digit first. */
  function DigitsValue(s: string): nat
    requires forall i :: 0 <= i < |s| ==> IsDigit(s[i])
    decreases |s|
  {
    if |s| == 0 then 0 else DigitsValue(s[..|s| - 1]) * 10 + DigitValue(s[|s| - 1])
  }

  /** `int.Parse(s)`: surrounding white space is ignored; what is left must be
      an optionally signed decimal literal whose value fits in 32 bits. */
  function ParseInt32(s: string): (r: Result<int, NumberError>)
    ensures r.Ok? ==> Int32Min <= r.value <= Int32Max
    ensures r == Err(Format) <==> !IsIntegerLiteral(TrimWith(s, IsNumberWhite))
  {
    ParseLiteral(TrimWith(s, IsNumberWhite))
  }

  /** The sign-and-digits part of `int.Parse`, on text already stripped of
      surrounding white space. */
  function ParseLiteral(t: string): (r: Result<int, NumberError>)
    ensures r.Ok? ==> Int32Min <= r.value <= Int32Max
    ensures r == Err(Format) <==> !IsIntegerLiteral(t)
  {
    var negative := |t| > 0 && t[0] == '-';
    var digits := if |t| > 0 && (t[0] == '-' || t[0] == '+') then t[1..] else t;
    if !IsDigits(digits) then Err(Format)
    else
      var n: int := if negative then -(DigitsValue(digits) as int) else DigitsValue(digits);
      if n < Int32Min || Int32Max < n then Err(Overflow) else Ok(n)
  }

  function DigitChar(d: nat): (c: char)
    requires d < 10
    ensures IsDigit(c) && DigitValue(c) == d
  {
    ('0' as int + d) as char
  }

  /** Decimal rendering of a natural number, without leading zeros. */
  function FormatNat(n: nat): (s: string)
    ensures IsDigits(s)
    decreases n
  {
    if n < 10 then [DigitChar(n)] else FormatNat(n / 10) + [DigitChar(n % 10)]
  }

  /** `n.ToString()` for an integer, in the invariant culture. */
  function FormatInt(n: int): (s: string)
    ensures IsIntegerLiteral(s)
  {
    if n < 0 then "-" + FormatNat(-n) else FormatNat(n)
  }

  lemma {:induction false} DigitsValueOfFormatNat(n: nat)
    ensures DigitsValue(FormatNat(n)) == n
    decreases n
  {
    if n >= 10 {
      var s := FormatNat(n);
      assert s[..|s| - 1] == FormatNat(n / 10);
      DigitsValueOfFormatNat(n / 10);
    }
  }

  /** A literal has no surrounding white space for `int.Parse` to drop. */
  lemma LiteralIsTrimmed(s: string)
    requires IsIntegerLiteral(s)
    ensures TrimWith(s, IsNumberWhite) == s
  {
    assert IsDigit(s[|s| - 1]);
    assert IsTrimmedBy(s, IsNumberWhite);
    TrimWithPadded([], s, [], IsNumberWhite);
    assert [] + s + [] == s;
  }

  /** Parsing the rendering of a number gives the number back when it fits
      in 32 bits, and an overflow otherwise. */
  lemma ParseFormatInt(n: int)
    ensures Int32Min <= n <= Int32Max ==> ParseInt32(FormatInt(n)) == Ok(n)
    ensures (n < Int32Min || Int32Max < n) ==> ParseInt32(FormatInt(n)) == Err(Overflow)
  {
    var s := FormatInt(n);
    LiteralIsTrimmed(s);
    if n < 0 {
      var digits := FormatNat(-n);
      assert s[1..] == digits;
      assert s[0] == '-';
      DigitsValueOfFormatNat(-n);
      assert DigitsValue(s[1..]) == -n;
    } else {
      DigitsValueOfFormatNat(n);
      assert s[0] != '-' && s[0] != '+';
    }
  }

  /** `k` zero digits. */
  function Zeros(k: nat): (s: string)
    ensures |s| == k && forall i :: 0 <= i < k ==> s[i] == '0'
  {
    seq(k, _ => '0')
  }

  /** Leading zeros do not change the value of a digit string. */
  lemma {:induction false} DigitsValueLeadingZeros(k: nat, t: string)
    requires forall i :: 0 <= i < |t| ==> IsDigit(t[i])
    ensures DigitsValue(Zeros(k) + t) == DigitsValue(t)
    decreases |t|
  {
    var s := Zeros(k) + t;
    if |t| == 0 {
      assert s == Zeros(k);
      ZerosValue(k);
    } else {
      assert s[..|s| - 1] == Zeros(k) + t[..|t| - 1];
      DigitsValueLeadingZeros(k, t[..|t| - 1]);
    }
  }

  /** A run of zeros is worth nothing. */
  lemma {:induction false} ZerosValue(k: nat)
    ensures DigitsValue(Zeros(k)) == 0
    decreases k
  {
    if k > 0 {
      assert Zeros(k)[..k - 1] == Zeros(k - 1);
      ZerosValue(k - 1);
    }
  }

  /** The optional sign in front of an integer literal. */
  datatype Sign = NoSign | Plus | Minus

  function SignText(sign: Sign): (t: string)
    ensures |t| <= 1
    ensures |t| == 1 ==> t[0] == '+' || t[0] == '-'
  {
    match sign
    case NoSign => ""
    case Plus => "+"
    case Minus => "-"
  }

  /** The value of an optional sign followed by decimal digits: the signed
      value of the digits when it fits in 32 bits, `Overflow` otherwise. */
  lemma ParseLiteralSigned(sign: Sign, digits: string)
    requires IsDigits(digits)
    ensures var v: int := if sign == Minus then -(DigitsValue(digits) as int) else DigitsValue(digits);
      ParseLiteral(SignText(sign) + digits) == if v < Int32Min || Int32Max < v then Err(Overflow) else Ok(v)
  {
    var m := SignText(sign) + digits;
    match sign
    case NoSign =>
      assert m == digits;
      assert IsDigit(m[0]);
    case Plus =>
      assert m[0] == '+' && m[1..] == digits;
    case Minus =>
      assert m[0] == '-' && m[1..] == digits;
  }

  /** Zeros in front of a rendered number keep its digits and value. */
  lemma ZerosBeforeFormatNat(k: nat, n: nat)
    ensures IsDigits(Zeros(k) + FormatNat(n))
    ensures DigitsValue(Zeros(k) + FormatNat(n)) == n
  {
    DigitsValueLeadingZeros(k, FormatNat(n));
    DigitsValueOfFormatNat(n);
  }

  /** A sign and digits have no white space at either end. */
  lemma SignedDigitsTrimmed(sign: Sign, digits: string)
    requires IsDigits(digits)
    ensures IsTrimmedBy(SignText(sign) + digits, IsNumberWhite)
  {
    var m := SignText(sign) + digits;
    assert m[|m| - 1] == digits[|digits| - 1];
    assert m[0] == if sign == NoSign then digits[0] else SignText(sign)[0];
  }

  /** `int.Parse` on any spelling of a number: white space around it, an
      optional `+` or `-` sign, and leading zeros before its digits. The value
      is the signed number when it fits in 32 bits, and `Overflow` otherwise
      (so "-0" is 0, "+5" and "007" are 5 and 7, "00002147483648" overflows). */
  lemma ParseSignedDigits(a: string, sign: Sign, k: nat, n: nat, c: string)
    requires forall i :: 0 <= i < |a| ==> IsNumberWhite(a[i])
    requires forall i :: 0 <= i < |c| ==> IsNumberWhite(c[i])
    ensures var v: int := if sign == Minus then -(n as int) else n;
      var r := ParseInt32(a + (SignText(sign) + (Zeros(k) + FormatNat(n))) + c);
      && (Int32Min <= v <= Int32Max ==> r == Ok(v))
      && (v < Int32Min || Int32Max < v ==> r == Err(Overflow))
  {
    PaddedZerosLiteral(a, sign, k, n, c);
    ZerosLiteralValue(sign, k, n);
  }

  /** The white space around a signed, zero-padded rendering is dropped. */
  lemma PaddedZerosLiteral(a: string, sign: Sign, k: nat, n: nat, c: string)
    requires forall i :: 0 <= i < |a| ==> IsNumberWhite(a[i])
    requires forall i :: 0 <= i < |c| ==> IsNumberWhite(c[i])
    ensures var m := SignText(sign) + (Zeros(k) + FormatNat(n));
      ParseInt32(a + m + c) == ParseLiteral(m)
  {
    var digits := Zeros(k) + FormatNat(n);
    ZerosBeforeFormatNat(k, n);
    SignedDigitsTrimmed(sign, digits);
    ParsePadded(a, SignText(sign) + digits, c);
  }

  /** A sign, zeros and a rendered number have the signed number as value. */
  lemma ZerosLiteralValue(sign: Sign, k: nat, n: nat)
    ensures var v: int := if sign == Minus then -(n as int) else n;
      ParseLiteral(SignText(sign) + (Zeros(k) + FormatNat(n))) ==
        if v < Int32Min || Int32Max < v then Err(Overflow) else Ok(v)
  {
    var digits := Zeros(k) + FormatNat(n);
    ZerosBeforeFormatNat(k, n);
    ParseLiteralSigned(sign, digits);
  }

  /** `int.Parse` drops the white space around a literal. */
  lemma ParsePadded(a: string, m: string, c: string)
    requires forall i :: 0 <= i < |a| ==> IsNumberWhite(a[i])
    requires forall i :: 0 <= i < |c| ==> IsNumberWhite(c[i])
    requires IsTrimmedBy(m, IsNumberWhite)
    ensures ParseInt32(a + m + c) == ParseLiteral(m)
  {
    TrimWithPadded(a, m, c, IsNumberWhite);
  }

  // ---------------------------------------------------------------------------
  // bool.TryParse
  // ---------------------------------------------------------------------------

  /** The characters `bool.TryParse` strips before comparing. */
  predicate IsWhiteSpaceOrNull(c: char) {
    IsWhiteSpace(c) || c == '\0'
  }

  /** `bool.TryParse(s, out b)`: `Some(b)` when `s`, stripped of white space
      and NUL characters, is "True" or "False" in any letter case. */
  function TryParseBool(s: string): (r: Option<bool>)
    ensures IsBlank(s) ==> r.None?
    ensures r.Some? ==> EqualsIgnoreCase(TrimWith(s, IsWhiteSpaceOrNull), FormatBool(r.value))
  {
    var t := TrimWith(s, IsWhiteSpaceOrNull);
    if EqualsIgnoreCase(t, "True") then Some(true)
    else if EqualsIgnoreCase(t, "False") then Some(false)
    else None
  }

  /** `b.ToString()`. */
  function FormatBool(b: bool): string {
    if b then "True" else "False"
  }

  /** A boolean literal in any letter case, padded by white space or NUL
      characters, parses to its value. */
  lemma TryParseBoolLiteral(a: string, lit: string, c: string, b: bool)
    requires forall k :: 0 <= k < |a| ==> IsWhiteSpaceOrNull(a[k])
    requires forall k :: 0 <= k < |c| ==> IsWhiteSpaceOrNull(c[k])
    requires EqualsIgnoreCase(lit, FormatBool(b))
    ensures TryParseBool(a + lit + c) == Some(b)
  {
    assert FoldCase(lit[0]) == FoldCase(FormatBool(b)[0]);
    assert FoldCase(lit[|lit| - 1]) == FoldCase(FormatBool(b)[|lit| - 1]);
    TrimWithPadded(a, lit, c, IsWhiteSpaceOrNull);
  }
}

=== FILE: results.dfy ===
/** How the parser reports "nothing found" and "failed": `Option` replaces a
    C# `null` return and `Result` replaces a thrown exception. */
module Results {

  /** A value or nothing: the model of a reference that may be `null`. */
  datatype Option<+T> = None | Some(value: T)

  /** A value or the error that the C# code would throw instead. */
  datatype Result<+T, +E> = Ok(value: T) | Err(error: E) {

    predicate IsFailure() {
      Err?
    }

    function PropagateFailure<U>(): Result<U, E>
      requires Err?
    {
      Err(error)
    }

    function Extract(): T
      requires Ok?
    {
      value
    }
  }
}

=== FILE: string_reader.dfy ===
/** `System.IO.StringReader.ReadLine`, with the reader's unread text as its
    state: a line ends at "\r\n", "\r" or "\n", and a final terminator does
    not start an extra empty line. */
module StringReader {
  import opened Results

  predicate IsLineBreak(c: char) {
    c == '\r' || c == '\n'
  }

  predicate HasNoLineBreak(s: string) {
    forall i :: 0 <= i < |s| ==> !IsLineBreak(s[i])
  }

  /** The three line terminators `ReadLine` recognises. */
  predicate IsTerminator(t: string) {
    t == "\n" || t == "\r" || t == "\r\n"
  }

  /** Index of the first line break at or after `from`, or `|s|`. */
  function LineEnd(s: string, from: nat): (e: nat)
    requires from <= |s|
    ensures from <= e <= |s|
    ensures forall k :: from <= k < e ==> !IsLineBreak(s[k])
    ensures e < |s| ==> IsLineBreak(s[e])
    decreases |s| - from
  {
    if from == |s| || IsLineBreak(s[from]) then from else LineEnd(s, from + 1)
  }

  /** One `ReadLine` call on unread text `s`: `None` once the text is used up,
      otherwise the next line and the text left after its terminator. */
  function ReadLine(s: string): (r: Option<(string, string)>)
    ensures r.None? <==> |s| == 0
    ensures r.Some? ==>
      var (line, rest) := r.value;
      && HasNoLineBreak(line)
      && |line| <= |s|
      && line == s[..|line|]
      && (|line| == |s| || IsLineBreak(s[|line|]))
      && |rest| < |s|
      && rest == s[|s| - |rest|..]
      && var consumed := |s| - |line| - |rest|;
      && (consumed == 0 <==> |line| == |s|)
      && (consumed == 2 <==> |line| + 2 <= |s| && s[|line|..|line| + 2] == "\r\n")
      && consumed <= 2
  {
    if |s| == 0 then None
    else
      var e := LineEnd(s, 0);
      var next :=
        if e == |s| then e
        else if s[e] == '\r' && e + 1 < |s| && s[e + 1] == '\n' then e + 2
        else e + 1;
      Some((s[..e], s[next..]))
  }

  /** All lines a reader returns before `ReadLine` yields `null`. */
  function ReadLines(s: string): (r: seq<string>)
    ensures |r| == 0 <==> |s| == 0
    ensures |r| <= |s|
    ensures forall i :: 0 <= i < |r| ==> HasNoLineBreak(r[i])
    decreases |s|
  {
    match ReadLine(s)
    case None => []
    case Some((line, rest)) => [line] + ReadLines(rest)
  }

  /** A break-free line followed by a terminator is read back as that line,
      leaving exactly the following text, unless a lone "\r" is followed by
      "\n" (the two then form one terminator). */
  lemma ReadLineOfTerminated(line: string, t: string, rest: string)
    requires HasNoLineBreak(line)
    requires IsTerminator(t)
    requires t == "\r" ==> |rest| == 0 || rest[0] != '\n'
    ensures ReadLine(line + t + rest) == Some((line, rest))
  {
    var s := line + t + rest;
    assert forall k :: 0 <= k < |line| ==> s[k] == line[k];
    assert s[|line|] == t[0];
    var e := LineEnd(s, 0);
    assert e == |line|;
    assert s[..e] == line;
    if t == "\r\n" {
      assert s[e + 1] == '\n';
      assert s[e + 2..] == rest;
    } else {
      assert s[e + 1..] == rest;
    }
  }

  /** Reading all lines is reading one line, then the rest. */
  lemma ReadLinesStep(s: string, line: string, rest: string)
    requires ReadLine(s) == Some((line, rest))
    ensures ReadLines(s) == [line] + ReadLines(rest)
  {
  }

  /** Lines, line i followed by the terminator `ts[i]`. */
  function Written(lines: seq<string>, ts: seq<string>): string
    requires |ts| == |lines|
    decreases |lines|
  {
    if |lines| == 0 then "" else lines[0] + ts[0] + Written(lines[1..], ts[1..])
  }

  /** `ts` terminates `lines` so that reading gives the lines back: every line
      is break-free and ends with its own terminator, except that the last
      line may end the text without one when it is not empty; and a "\r"
      followed by an empty line that ends with "\n" is excluded, since the
      two would form one "\r\n" terminator. */
  predicate IsWriting(lines: seq<string>, ts: seq<string>) {
    && |ts| == |lines|
    && (forall i :: 0 <= i < |lines| ==> HasNoLineBreak(lines[i]))
    && (forall i :: 0 <= i < |ts| ==>
          IsTerminator(ts[i]) || (i == |ts| - 1 && ts[i] == "" && |lines[i]| > 0))
    && (forall i :: 0 <= i < |ts| - 1 && ts[i] == "\r" && lines[i + 1] == "" ==> ts[i + 1] != "\n")
  }

  /** Dropping the first line keeps a writing a writing. */
  lemma WritingTail(lines: seq<string>, ts: seq<string>)
    requires |lines| > 0 && IsWriting(lines, ts)
    ensures IsWriting(lines[1..], ts[1..])
  {
    var tl, tt := lines[1..], ts[1..];
    assert forall i :: 0 <= i < |tl| ==> tl[i] == lines[i + 1] && tt[i] == ts[i + 1];
  }

  /** The text written after a "\r" does not start with "\n". */
  lemma WrittenStart(lines: seq<string>, ts: seq<string>)
    requires IsWriting(lines, ts)
    requires |lines| > 0 ==> lines[0] != "" || ts[0] != "\n"
    ensures var s := Written(lines, ts); |s| == 0 || s[0] != '\n'
  {
    if |lines| > 0 {
      var s := Written(lines, ts);
      assert s == lines[0] + (ts[0] + Written(lines[1..], ts[1..]));
      if |lines[0]| > 0 {
        assert s[0] == lines[0][0];
      } else {
        assert IsTerminator(ts[0]);
        assert s[0] == ts[0][0];
      }
    }
  }

  /** One written line in front of text that reads back as the remaining
      lines reads back as all of them. */
  lemma ReadLinesOfWrittenStep(lines: seq<string>, ts: seq<string>)
    requires |lines| > 0 && IsWriting(lines, ts)
    requires ReadLines(Written(lines[1..], ts[1..])) == lines[1..]
    ensures ReadLines(Written(lines, ts)) == lines
  {
    if ts[0] == "" {
      ReadLinesOfUnterminated(lines, ts);
    } else {
      ReadLinesOfTerminatedFirst(lines, ts);
    }
  }

  /** A last line written without terminator reads back as itself. */
  lemma ReadLinesOfUnterminated(lines: seq<string>, ts: seq<string>)
    requires |lines| > 0 && IsWriting(lines, ts)
    requires ts[0] == ""
    ensures ReadLines(Written(lines, ts)) == lines
  {
    assert |lines| == 1;
    assert Written(lines, ts) == lines[0] + "" + "";
    assert lines[0] + "" + "" == lines[0];
    ReadLinesOfSingleLine(lines[0]);
  }

  /** A first line written with a terminator is read off, leaving the text
      of the remaining lines. */
  lemma ReadLinesOfTerminatedFirst(lines: seq<string>, ts: seq<string>)
    requires |lines| > 0 && IsWriting(lines, ts)
    requires ts[0] != ""
    requires ReadLines(Written(lines[1..], ts[1..])) == lines[1..]
    ensures ReadLines(Written(lines, ts)) == lines
  {
    var rest := Written(lines[1..], ts[1..]);
    var s := Written(lines, ts);
    assert s == lines[0] + ts[0] + rest;
    assert IsTerminator(ts[0]);
    if ts[0] == "\r" && |lines| > 1 {
      WritingTail(lines, ts);
      assert lines[1..][0] == lines[1] && ts[1..][0] == ts[1];
      WrittenStart(lines[1..], ts[1..]);
    }
    ReadLineOfTerminated(lines[0], ts[0], rest);
    ReadLinesStep(s, lines[0], rest);
    assert [lines[0]] + lines[1..] == lines;
  }

  /** Round trip: break-free lines, each followed by its own terminator (the
      last one possibly by none), read back as exactly those lines. */
  lemma {:induction false} ReadLinesOfWritten(lines: seq<string>, ts: seq<string>)
    requires IsWriting(lines, ts)
    ensures ReadLines(Written(lines, ts)) == lines
    decreases |lines|
  {
    if |lines| > 0 {
      WritingTail(lines, ts);
      ReadLinesOfWritten(lines[1..], ts[1..]);
      ReadLinesOfWrittenStep(lines, ts);
    }
  }

  /** Text without any line break is read as one line (unless it is empty). */
  lemma ReadLinesOfSingleLine(s: string)
    requires |s| > 0 && HasNoLineBreak(s)
    ensures ReadLines(s) == [s]
  {
    assert LineEnd(s, 0) == |s|;
    assert s[..|s|] == s;
  }
}

=== FILE: text.dfy ===
/** The .NET string primitives the parser relies on: `char.IsWhiteSpace`,
    `string.IsNullOrWhiteSpace`, `string.Trim`, `string.Split(char)`,
    `string.Join` and a case-insensitive comparison. */
module Text {

  /** `char.IsWhiteSpace`: the characters of the Unicode White_Space property. */
  predicate IsWhiteSpace(c: char) {
    || c == ' '
    || '\t' <= c <= '\r'
    || c == '\U{0085}'
    || c == '\U{00A0}'
    || c == '\U{1680}'
    || '\U{2000}' <= c <= '\U{200A}'
    || c == '\U{2028}'
    || c == '\U{2029}'
    || c == '\U{202F}'
    || c == '\U{205F}'
    || c == '\U{3000}'
  }

  /** `string.IsNullOrWhiteSpace` on a non-null string: empty or only white space. */
  predicate IsBlank(s: string) {
    forall i :: 0 <= i < |s| ==> IsWhiteSpace(s[i])
  }

  // ---------------------------------------------------------------------------
  // Trimming
  // ---------------------------------------------------------------------------

  /** Neither end of `s` is a character that `strip` removes. */
  predicate IsTrimmedBy(s: string, strip: char -> bool) {
    |s| == 0 || (!strip(s[0]) && !strip(s[|s| - 1]))
  }

  predicate IsTrimmed(s: string) {
    IsTrimmedBy(s, IsWhiteSpace)
  }

  /** Index of the first character at or after `from` that `strip` keeps,
      or `|s|` when there is none. */
  function TrimStartIndex(s: string, strip: char -> bool, from: nat): (i: nat)
    requires from <= |s|
    ensures from <= i <= |s|
    ensures forall k :: from <= k < i ==> strip(s[k])
    ensures i < |s| ==> !strip(s[i])
    decreases |s| - from
  {
    if from < |s| && strip(s[from]) then TrimStartIndex(s, strip, from + 1) else from
  }

  /** One past the last character below `hi` (and not below `lo`) that
      `strip` keeps, or `lo` when there is none. */
  function TrimEndIndex(s: string, strip: char -> bool, lo: nat, hi: nat): (j: nat)
    requires lo <= hi <= |s|
    ensures lo <= j <= hi
    ensures forall k :: j <= k < hi ==> strip(s[k])
    ensures lo < j ==> !strip(s[j - 1])
    decreases hi
  {
    if lo < hi && strip(s[hi - 1]) then TrimEndIndex(s, strip, lo, hi - 1) else hi
  }

  /** Removes every leading and trailing character that `strip` selects. */
  function TrimWith(s: string, strip: char -> bool): (r: string)
    ensures IsTrimmedBy(r, strip)
    ensures |r| == 0 <==> forall k :: 0 <= k < |s| ==> strip(s[k])
    ensures |r| <= |s|
    ensures forall c :: c in r ==> c in s
  {
    var i := TrimStartIndex(s, strip, 0);
    var j := TrimEndIndex(s, strip, i, |s|);
    assert i < |s| ==> i < j;
    s[i..j]
  }

  /** `string.Trim()`: removes leading and trailing white space. */
  function Trim(s: string): (r: string)
    ensures IsTrimmed(r)
    ensures |r| == 0 <==> IsBlank(s)
    ensures forall c :: c in r ==> c in s
  {
    TrimWith(s, IsWhiteSpace)
  }

  /** Trimming is fully determined: whatever stripped padding surrounds a
      trimmed core, trimming gives back exactly that core. */
  lemma TrimWithPadded(a: string, m: string, b: string, strip: char -> bool)
    requires forall k :: 0 <= k < |a| ==> strip(a[k])
    requires forall k :: 0 <= k < |b| ==> strip(b[k])
    requires IsTrimmedBy(m, strip)
    ensures TrimWith(a + m + b, strip) == m
  {
    var s := a + m + b;
    if |m| == 0 {
      assert forall k :: 0 <= k < |s| ==> strip(s[k]) by {
        forall k | 0 <= k < |s| ensures strip(s[k]) {
          if k < |a| { assert s[k] == a[k]; } else { assert s[k] == b[k - |a|]; }
        }
      }
    } else {
      assert forall k :: 0 <= k < |a| ==> s[k] == a[k];
      assert forall k :: |a| + |m| <= k < |s| ==> s[k] == b[k - |a| - |m|];
      assert s[|a|] == m[0];
      assert s[|a| + |m| - 1] == m[|m| - 1];
      var i := TrimStartIndex(s, strip, 0);
      assert i == |a|;
      var j := TrimEndIndex(s, strip, i, |s|);
      assert j == |a| + |m|;
      assert s[i..j] == m;
    }
  }

  /** Trimming an already trimmed string leaves it unchanged. */
  lemma TrimIdempotent(s: string)
    ensures Trim(Trim(s)) == Trim(s)
  {
    var r := Trim(s);
    TrimWithPadded([], r, [], IsWhiteSpace);
    assert [] + r + [] == r;
  }

  /** A trimmed string is its own trim. */
  lemma TrimOfTrimmed(s: string)
    requires IsTrimmed(s)
    ensures Trim(s) == s
  {
    TrimWithPadded([], s, [], IsWhiteSpace);
    assert [] + s + [] == s;
  }

  // ---------------------------------------------------------------------------
  // Splitting and joining on one separator character
  // ---------------------------------------------------------------------------

  /** `s.Split(d)`: the maximal runs of characters between occurrences of
      `d`, empty runs included. */
  function Split(s: string, d: char): (r: seq<string>)
    ensures |r| == multiset(s)[d] + 1
    ensures forall i :: 0 <= i < |r| ==> d !in r[i]
    decreases |s|
  {
    if |s| == 0 then [""]
    else
      var rest := Split(s[1..], d);
      assert s == [s[0]] + s[1..];
      if s[0] == d then [""] + rest
      else [[s[0]] + rest[0]] + rest[1..]
  }

  /** `string.Join(d.ToString(), parts)`: the parts in order, one separator
      between each two neighbours. */
  function Join(parts: seq<string>, d: char): (r: string)
    ensures |parts| == 0 ==> r == ""
    ensures |parts| > 0 ==> parts[0] <= r
    decreases |parts|
  {
    if |parts| == 0 then ""
    else if |parts| == 1 then parts[0]
    else parts[0] + [d] + Join(parts[1..], d)
  }

  /** A join of separator-free parts holds exactly one separator between
      each two neighbouring parts, and no other. */
  lemma {:induction false} JoinSeparatorCount(parts: seq<string>, d: char)
    requires |parts| > 0
    requires forall i :: 0 <= i < |parts| ==> d !in parts[i]
    ensures multiset(Join(parts, d))[d] == |parts| - 1
    decreases |parts|
  {
    assert d !in parts[0];
    if |parts| > 1 {
      JoinSeparatorCount(parts[1..], d);
      assert Join(parts, d) == parts[0] + [d] + Join(parts[1..], d);
    }
  }

  /** Every character of every part appears in the joined string. */
  lemma {:induction false} JoinContainsParts(parts: seq<string>, d: char, i: nat, c: char)
    requires i < |parts| && c in parts[i]
    ensures c in Join(parts, d)
    decreases |parts|
  {
    if |parts| > 1 {
      if i == 0 {
        assert Join(parts, d) == parts[0] + ([d] + Join(parts[1..], d));
      } else {
        JoinContainsParts(parts[1..], d, i - 1, c);
      }
    }
  }

  /** Joining a part in front of a non-empty list adds one separator. */
  lemma JoinCons(x: string, rest: seq<string>, d: char)
    requires |rest| > 0
    ensures Join([x] + rest, d) == x + [d] + Join(rest, d)
  {
    assert ([x] + rest)[1..] == rest;
  }

  /** Prefixing a character to the first part prefixes it to the join. */
  lemma JoinPrefixFirst(c: char, rest: seq<string>, d: char)
    requires |rest| > 0
    ensures Join([[c] + rest[0]] + rest[1..], d) == [c] + Join(rest, d)
  {
    var r := [[c] + rest[0]] + rest[1..];
    if |rest| > 1 {
      assert r[1..] == rest[1..];
      assert Join(rest, d) == rest[0] + [d] + Join(rest[1..], d);
    }
  }

  /** Joining the pieces of a split with the same separator rebuilds the string. */
  lemma {:induction false} JoinSplit(s: string, d: char)
    ensures Join(Split(s, d), d) == s
    decreases |s|
  {
    if |s| > 0 {
      var rest := Split(s[1..], d);
      JoinSplit(s[1..], d);
      assert s == [s[0]] + s[1..];
      if s[0] == d {
        JoinCons("", rest, d);
      } else {
        JoinPrefixFirst(s[0], rest, d);
      }
    }
  }

  /** A string without the separator splits into itself alone. */
  lemma {:induction false} SplitWithoutSeparator(s: string, d: char)
    requires d !in s
    ensures Split(s, d) == [s]
    decreases |s|
  {
    if |s| > 0 {
      SplitWithoutSeparator(s[1..], d);
      assert [s[0]] + s[1..] == s;
    }
  }

  /** Splitting `a + d + b` where `a` has no separator peels off `a`. */
  lemma {:induction false} SplitAtFirstSeparator(a: string, b: string, d: char)
    requires d !in a
    ensures Split(a + [d] + b, d) == [a] + Split(b, d)
    decreases |a|
  {
    var s := a + [d] + b;
    if |a| == 0 {
      assert s[1..] == b;
    } else {
      assert s[1..] == a[1..] + [d] + b;
      SplitAtFirstSeparator(a[1..], b, d);
      assert [a[0]] + a[1..] == a;
    }
  }

  /** Splitting a join of separator-free parts recovers the parts. */
  lemma {:induction false} SplitJoin(parts: seq<string>, d: char)
    requires |parts| > 0
    requires forall i :: 0 <= i < |parts| ==> d !in parts[i]
    ensures Split(Join(parts, d), d) == parts
    decreases |parts|
  {
    if |parts| == 1 {
      SplitWithoutSeparator(parts[0], d);
    } else {
      SplitJoin(parts[1..], d);
      SplitAtFirstSeparator(parts[0], Join(parts[1..], d), d);
      assert [parts[0]] + parts[1..] == parts;
    }
  }

  // ---------------------------------------------------------------------------
  // Case-insensitive comparison
  // ---------------------------------------------------------------------------

  /** Simple lower-case mapping of the ASCII and Latin-1 capital letters;
      every other character is its own fold. */
  function FoldCase(c: char): char {
    if 'A' <= c <= 'Z' || ('\U{00C0}' <= c <= '\U{00DE}' && c != '\U{00D7}') then
      (c as int + 32) as char
    else
      c
  }

  /** `string.Equals(a, b, StringComparison.InvariantCultureIgnoreCase)`,
      reduced to a character-by-character comparison under `FoldCase`: the
      linguistic parts of the invariant-culture comparison (ignorable code
      points, strings of different length that compare equal) are not
      modelled. */
  predicate EqualsIgnoreCase(a: string, b: string) {
    |a| == |b| && forall i :: 0 <= i < |a| ==> FoldCase(a[i]) == FoldCase(b[i])
  }

  /** Folding is a projection: a folded character folds to itself, and each
      ASCII letter folds to its lower-case form, whatever its case. */
  lemma FoldCaseProperties(c: char)
    ensures FoldCase(FoldCase(c)) == FoldCase(c)
    ensures 'a' <= c <= 'z' ==> FoldCase(c) == c && FoldCase((c as int - 32) as char) == c
  {
  }

  /** The case-insensitive comparison is an equivalence: reflexive,
      symmetric and transitive. */
  lemma EqualsIgnoreCaseIsEquivalence(a: string, b: string, c: string)
    ensures EqualsIgnoreCase(a, a)
    ensures EqualsIgnoreCase(a, b) ==> EqualsIgnoreCase(b, a)
    ensures EqualsIgnoreCase(a, b) && EqualsIgnoreCase(b, c) ==> EqualsIgnoreCase(a, c)
  {
  }
}
